=== FILE: README.md ===
# Stream consumer protocol core, in Dafny

This project models the protocol logic of `StreamConsumer.js`. That is the
client side of a multiplexed streaming connection. Subscribers ask for streams
by a 32-character hexadecimal hash. The consumer keeps a registry of
subscriptions and writes subscribe, unsubscribe and stop control messages to
the transport. It reads newline-framed JSON records back from the connection.

The model covers five parts:

- **Line framer** (`Framing`, `Consumer`). Incoming chunks are appended to a
  held-back buffer. The buffer is split into lines only when the chunk itself
  contains a newline, and the last piece of the split is held back. Each
  complete line is parsed. A line that does not parse gives one parse warning.
  A falsy value is skipped, and every other value is routed. When the end of
  the connection arrives, the buffer is dropped.
- **Subscription registry** (`Subscriptions`). The registry holds the hashes in
  insertion order, the subscription objects, and the state of the deferreds
  handed out for them. The operations are `_subscribeToStream`, `subscribe`,
  `unsubscribe`, `setSubscriptions` (with `_arrayDifference`) and `shutdown`.
- **Event router** (`Router`, `Patterns`). `_handleEvent` classifies a record
  by its first matching branch: failure, success, warning, deleted, tick,
  interaction, then unknown. It returns the new registry and the effects.
  The two case-insensitive regular expressions that pull a hash out of a
  status message are modelled as a leftmost, greedy scan.
- **Hash validator** (`Hashes`). `/^[a-f0-9]{32}$/i`, as a loop with a proof
  of equivalence. This module also holds the control messages that name a
  hash.
- **Connection path** (`Subscriptions.ConnectPath`). The request path
  `_connect` builds from the registry's keys.

Everything the consumer does to the outside world is returned as data, in
order, in a sequence of `Effect`s:

- emitted events;
- transport writes;
- watchdog rearms and cancellation;
- a recovery request;
- start and stop.

Several inputs that the source reads from outside its own code are
parameters of the model:

- `JSON.parse` is a parameter `parse: string -> Option<Value>`, where `None`
  stands for a throw.
- The outcome of the consumer's start (`StartOutcome`) is a parameter. One
  outcome serves every `subscribe` of a `setSubscriptions` call (see "Left out").
- `client.started()` is a boolean parameter, `started`.

Q deferreds are modelled as numbered promises. A `settled` map records the
first settlement of each promise; later settlements are ignored.

Some record shapes make `_handleEvent` throw a `TypeError`. They are:

- a `success` or `warning` status whose `message` is not a string;
- `"data": null` in a record without one of the three statuses;
- a `failure` status whose `message` cannot be converted to a string by
  `new Error(message)`: an object with its own `toString` key, or an array
  holding such a value at any depth. Recovery has already been requested when
  this throw happens;
- a `success` or `warning` whose captured hash names a property every plain
  object inherits, such as `constructor`: the lookup at line 308 or 321 finds
  that property instead of a subscription, and `stream.deferred.resolve` or
  `.reject` throws. This shape is not modelled (see "Left out").

The first two are classified `Faulty`. `Router.Throws` covers the first three.
Routing such a record yields `Threw`, carrying the effects issued before the
throw. The exception escapes `_onData` after the buffer has been updated, so
the rest of that chunk's lines are abandoned. `Consumer.DeliverAppend` states
this: a throw in one run of lines abandons the next. `Consumer.OnDataTwoChunks`
covers only the case where no record of the first chunk throws.

The files are:

- `common.dfy`: `Option`, `Distinct`.
- `strings.dfy`: ECMAScript whitespace, ASCII case folding, `split` and `join`.
- `json.dfy`: parsed JSON values, truthiness, property access.
- `effects.dfy`: events and effects.
- `hashes.dfy`: the validator and the control messages.
- `subscriptions.dfy`: the registry.
- `patterns.dfy`: the two status-message patterns.
- `router.dfy`: `_handleEvent`.
- `framing.dfy`: line framing.
- `consumer.dfy`: `_onData` and `_onEnd`.

## Model

| member | source | states |
|---|---|---|
| `Strings.Join` | StreamConsumer.js:216 | every character of every piece is in the joined string, and every character of it is the delimiter or comes from a piece |
| `Strings.Split` | StreamConsumer.js:254 | `split('\n')` yields at least one piece, and no piece contains the delimiter |
| `Strings.JoinSplit` | StreamConsumer.js:254-256 | joining the pieces of a split with the delimiter gives back the split string |
| `Strings.SplitJoin` | StreamConsumer.js:215-216 | splitting a join of delimiter-free pieces gives back the pieces |
| `Strings.SplitAppend` | StreamConsumer.js:252-256 | appending text to a split string leaves every piece but the last one unchanged |
| `Hashes.ValidateHash` | StreamConsumer.js:380-382 | the character loop accepts exactly the strings of 32 characters, each in `[0-9a-fA-F]` |
| `Hashes.ValidateHashExamples` | StreamConsumer.js:380-382 | lower- and upper-case hashes are valid; the empty string, a word, 31 and 33 characters, and a trailing space are not |
| `Hashes.ValidHashIsPlain` | StreamConsumer.js:160-166 | a valid hash has no whitespace, comma, quote or backslash, so it appears verbatim in a control message and in the comma-joined path |
| `Hashes.SubscribeMessage` | StreamConsumer.js:165 | the hash can be read back out of the subscribe message |
| `Hashes.UnsubscribeMessage` | StreamConsumer.js:131 | the hash can be read back out of the unsubscribe message |
| `Hashes.StopMessage` | StreamConsumer.js:241 | the stop message is neither a subscribe nor an unsubscribe message for any hash |
| `Hashes.ControlMessagesNameTheirHash` | StreamConsumer.js:131 | the hash can be read back out of a subscribe or unsubscribe message, and a subscribe message never equals an unsubscribe message |
| `Subscriptions.InitialIsValid` | StreamConsumer.js:60 | a new consumer's empty registry satisfies the registry invariant |
| `Subscriptions.Except` | StreamConsumer.js:403 | the filter keeps exactly the elements of `a` not in `b`, and the result is no longer than `a` |
| `Subscriptions.ArrayDifference` | StreamConsumer.js:393-404 | an undefined first list gives `[]`; an undefined second list gives the first list; otherwise the result holds exactly the first list's elements that are not in the second |
| `Subscriptions.ExceptAppend` | StreamConsumer.js:403 | the filter distributes over concatenation, so it keeps the first list's order |
| `Subscriptions.ExceptDistinct` | StreamConsumer.js:403 | filtering a list without repetitions gives a list without repetitions |
| `Subscriptions.Settle` | StreamConsumer.js:311 | a deferred settles once: a second resolve or reject changes nothing, and no other deferred changes |
| `Subscriptions.Remove` | StreamConsumer.js:139 | deleting a key removes that entry only, and that key only from the key order, which keeps its order; the other entries stay as they were |
| `Subscriptions.SubscribeToStream` | StreamConsumer.js:150-169 | a present hash returns its own deferred and changes and writes nothing; an absent hash gets one new pending entry at the end of the key order, with a fresh deferred, and the subscribe message is written exactly when the transport is started |
| `Subscriptions.Subscribe` | StreamConsumer.js:106-118 | start comes first; a failed start rejects with its reason; an invalid hash rejects with `invalid hash: <h>` and changes nothing; a valid hash gets the entry's deferred; a valid hash already listed changes nothing and writes nothing; a valid new hash gets a pending entry at the end of the key order, and its subscribe message is written exactly when started |
| `Subscriptions.Unsubscribe` | StreamConsumer.js:125-142 | an unknown hash rejects with `unknown hash: <h>` and changes nothing; a known hash is removed alone, the call resolves with its entry in state `unsubscribed`, and the unsubscribe message is written exactly when started |
| `Subscriptions.SubscribeEach` | StreamConsumer.js:89-92 | one future per hash, in order; the entries afterwards are the old ones, unchanged, plus the valid hashes when start succeeded |
| `Subscriptions.UnsubscribeEach` | StreamConsumer.js:83-87 | one future per hash, in order; exactly the listed hashes leave the registry and the others keep their entries |
| `Subscriptions.Additions` | StreamConsumer.js:76-80 | the hashes to subscribe are the desired ones not present, with an undefined list read as `[]` |
| `Subscriptions.Removals` | StreamConsumer.js:76-81 | the hashes to unsubscribe are the present ones not desired |
| `Subscriptions.SetSubscriptions` | StreamConsumer.js:73-99 | one future per addition and removal; the watchdog is rearmed first; the consumer is started at the end when the transport was not started |
| `Subscriptions.SubscribeEachWrites` | StreamConsumer.js:89-92 | subscribing a list writes only subscribe messages for valid listed hashes, and only when the start succeeds and the transport is started; then every valid listed hash that was absent is written; every other effect is a start |
| `Subscriptions.UnsubscribeEachWrites` | StreamConsumer.js:83-87 | unsubscribing a list writes only unsubscribe messages for listed hashes, and only when started; then every listed hash that was present is written |
| `Subscriptions.UnsubscribeWritesDropped` | StreamConsumer.js:80-87 | every unsubscribe message `setSubscriptions` writes is for a hash it drops, written while started |
| `Subscriptions.ReconcileUnsubscribeWrites` | StreamConsumer.js:80-87 | `setSubscriptions` writes an unsubscribe message for a hash exactly when the transport is started as it runs and the hash is to be dropped |
| `Subscriptions.SubscribeWritesAdded` | StreamConsumer.js:79-92 | every subscribe message `setSubscriptions` writes is for a valid hash it adds, written after a successful start while started |
| `Subscriptions.ReconcileSubscribeWrites` | StreamConsumer.js:79-92 | `setSubscriptions` writes a subscribe message for a hash exactly when the start succeeds, the transport is started when the subscription goes ahead, and the hash is valid and to be added |
| `Subscriptions.FreshValid` | StreamConsumer.js:152-162 | the hashes whose subscription creates an entry: exactly the valid listed hashes not already present, each once |
| `Subscriptions.SubscribeStepOrder` | StreamConsumer.js:106-118 | one `subscribe` starts once and writes its subscribe message exactly when it creates an entry after a successful start while started |
| `Subscriptions.SubscribeEachOrder` | StreamConsumer.js:89-92 | subscribing a list starts once per hash and, after a successful start while started, writes one subscribe message per newly entered hash, in list order |
| `Subscriptions.UnsubscribeEachOrder` | StreamConsumer.js:83-87 | unsubscribing distinct present hashes starts nothing and, while started, writes their unsubscribe messages in list order |
| `Subscriptions.UnsubscribeHalfOrder` | StreamConsumer.js:81-87 | the unsubscribe half of `setSubscriptions` writes the dropped hashes' messages in key order, while started, and starts nothing |
| `Subscriptions.SubscribeHalfOrder` | StreamConsumer.js:80-92 | the subscribe half of `setSubscriptions` starts once per addition and writes the valid added hashes' messages in desired order, each once |
| `Subscriptions.ReconcileWriteOrder` | StreamConsumer.js:73-99 | `setSubscriptions` writes all its unsubscribe messages, in key order, before all its subscribe messages, in desired order; it starts once per addition, plus once at the end exactly when the transport was not started |
| `Subscriptions.StartedConsumerStartsOnce` | StreamConsumer.js:94-96 | with the transport already started, one valid hash gives exactly one start and that hash's subscribe message as the only write |
| `Subscriptions.FirstSubscriptionIsWritten` | StreamConsumer.js:94-96 | a fresh consumer asked for one valid hash starts and, once started, writes that hash's subscribe message |
| `Subscriptions.Acknowledge` | StreamConsumer.js:307-313 | a success naming a present hash makes that entry `subscribed` and resolves its deferred with it unless it was already settled; nothing else changes, and an absent hash changes nothing |
| `Subscriptions.Refuse` | StreamConsumer.js:320-326 | a warning naming a present hash rejects its deferred with the message unless it was already settled, and removes that key only; an absent hash changes nothing |
| `Subscriptions.Shutdown` | StreamConsumer.js:236-243 | the registry is emptied; no deferred is settled; the effects are, in this order, clearing the watchdog, writing `{"action":"stop"}` and stopping the transport |
| `Subscriptions.ConnectPath` | StreamConsumer.js:212-217 | the path always starts with `/multi?statuses=true` |
| `Subscriptions.ConnectPathListsHashes` | StreamConsumer.js:212-217 | the path is the bare base path exactly when the registry is empty; otherwise the `hashes` parameter, split at commas, is the registry's keys in insertion order |
| `Subscriptions.SubscribeTwiceSameFuture` | StreamConsumer.js:152-154 | a second `_subscribeToStream` for a hash returns the same deferred, writes nothing and changes nothing |
| `Subscriptions.SubscribeToStreamKeepsValid` | StreamConsumer.js:156-162 | adding an entry keeps the registry invariant, and the new deferred is unsettled and shared with no other entry |
| `Subscriptions.RemoveKeepsValid` | StreamConsumer.js:139 | deleting a key keeps the registry invariant |
| `Subscriptions.SubscribeKeepsValid` | StreamConsumer.js:106-118 | `subscribe` keeps the registry invariant |
| `Subscriptions.UnsubscribeKeepsValid` | StreamConsumer.js:125-142 | `unsubscribe` keeps the registry invariant |
| `Subscriptions.AcknowledgeKeepsValid` | StreamConsumer.js:307-313 | resolving an entry keeps the registry invariant |
| `Subscriptions.RefuseKeepsValid` | StreamConsumer.js:320-326 | rejecting and removing an entry keeps the registry invariant |
| `Subscriptions.ShutdownStrandsPending` | StreamConsumer.js:236-243 | after shutdown the invariant holds, and every deferred that was pending stays unsettled |
| `Subscriptions.SubscribeEachKeepsValid` | StreamConsumer.js:89-92 | subscribing a list keeps the registry invariant |
| `Subscriptions.UnsubscribeEachKeepsValid` | StreamConsumer.js:83-87 | unsubscribing a list keeps the invariant, and the key order becomes the old order without the listed hashes |
| `Subscriptions.UnsubscribeEachFutures` | StreamConsumer.js:83-87 | for distinct hashes, each present hash's future resolves with its entry in state `unsubscribed`, and each absent hash's future rejects with `unknown hash: <h>` |
| `Subscriptions.ReconcileRemovals` | StreamConsumer.js:80-87 | after the unsubscribe half, exactly the present and desired hashes remain, and the invariant holds |
| `Subscriptions.RemovalFutures` | StreamConsumer.js:81-87 | every hash to drop is present, and its future resolves with its unsubscribed entry |
| `Subscriptions.ReconcileRegistry` | StreamConsumer.js:73-99 | afterwards the registry holds the hashes that were present and desired, unchanged, plus the desired absent hashes that could be subscribed; the invariant is kept |
| `Subscriptions.ReconcileFutures` | StreamConsumer.js:80-92 | the subscribe futures come first, one per addition in desired order; then the unsubscribe futures, one per removal in key order |
| `Subscriptions.ReconcileToNothing` | StreamConsumer.js:73-99 | reconciling with an empty list empties the registry and resolves one unsubscribed entry per key, in key order |
| `Patterns.RunLength` | StreamConsumer.js:306 | `\S+` taken greedily: the run contains no whitespace and ends at whitespace or at the end of the message |
| `Patterns.CaptureAt` | StreamConsumer.js:306 | a result at a position is a match there; no result means no capture matches there |
| `Patterns.FirstMatch` | StreamConsumer.js:306 | the scan stops at the first position where the pattern matches, and no earlier position matches |
| `Patterns.CaptureIsLeftmostMatch` | StreamConsumer.js:306 | the capture is `h` exactly when the pattern captures `h` at some position and matches at no earlier one; there is no capture exactly when it matches nowhere |
| `Patterns.LeftmostIsFirst` | StreamConsumer.js:306 | a match with no match before it is the one the scan finds |
| `Patterns.MatchIsUnique` | StreamConsumer.js:306 | at a given position the pattern captures at most one string |
| `Patterns.CapturesWordAfterPrefix` | StreamConsumer.js:319 | a message made of a case variant of the prefix, a non-blank word and the suffix yields that word |
| `Patterns.SubscribedHash` | StreamConsumer.js:306 | a captured hash is what the pattern captures at some position with no match before it; no capture means the pattern matches nowhere |
| `Patterns.MissingHash` | StreamConsumer.js:319 | a captured hash is what the pattern captures at some position with no match before it; no capture means the pattern matches nowhere |
| `Patterns.SubscribedNamesHash` | StreamConsumer.js:306 | `Successfully subscribed to hash <h>` yields `h` for any non-blank `h` |
| `Patterns.MissingNamesHash` | StreamConsumer.js:319 | `The hash <h> doesn't exist` yields `h` for any non-blank `h` |
| `Json.Truthy` | StreamConsumer.js:266 | the falsy parsed values are exactly `null`, `false`, `0` and the empty string |
| `Router.Classify` | StreamConsumer.js:294-346 | the branches in source order; each class states the conditions that select it, including that no earlier branch applied; a record is `Faulty`, throwing before anything is done, exactly when a success or warning has a non-string message, or when there is no status and `data` is null |
| `Router.Route` | StreamConsumer.js:289-348 | among the modelled record shapes, it throws exactly for those of `Throws`: a faulty record throws with no effect, and a failure whose message cannot become a string throws after requesting recovery; a handled record emits exactly one event and writes nothing; recovery is requested exactly for a failure other than the stop acknowledgement, before the `error` event; the watchdog is rearmed exactly for delete, tick and interaction, before the `delete`, `tick` or `interaction` event carrying the record; success and warning emit their event with the message; an unknown record is emitted unchanged; the registry changes only through a captured hash |
| `Router.UnprintableFailureThrows` | StreamConsumer.js:294-302 | a failure whose message cannot be converted to a string requests recovery and then throws |
| `Router.RouteKeepsValid` | StreamConsumer.js:304-329 | routing a record keeps the registry invariant |
| `Router.ConfirmationResolvesSubscriber` | StreamConsumer.js:304-316 | the service's confirmation for a pending hash marks it subscribed, fulfils its deferred with the entry and emits `success` |
| `Router.RefusalRejectsSubscriber` | StreamConsumer.js:317-329 | the service's refusal for a pending hash removes it, rejects its deferred with the message and emits `warning` |
| `Framing.FrameChunk` | StreamConsumer.js:252-256 | a chunk without a newline is appended and releases no line; otherwise the released lines, each joined by a newline and followed by the new tail, are the old buffer plus the chunk, and neither the lines nor the tail contain a newline |
| `Framing.FrameIsUnique` | StreamConsumer.js:254-256 | any split of buffer plus chunk into newline-free lines and a newline-free tail is the one framing finds |
| `Framing.FrameTwoChunks` | StreamConsumer.js:252-256 | starting from a newline-free buffer, two chunks in turn release the same lines and hold back the same tail as their concatenation |
| `Consumer.Records` | StreamConsumer.js:257-268 | a value is a record exactly when some line parses to it and it is truthy; there is at most one record per line |
| `Consumer.Malformed` | StreamConsumer.js:260-264 | a line is malformed exactly when it is one of the lines and does not parse; there are no more malformed lines than lines |
| `Consumer.RouteAll` | StreamConsumer.js:266-268 | routing records in turn writes nothing, never reports a parse warning, emits at most one event per record, and throws only on a record of `Router.Throws` |
| `Consumer.Step` | StreamConsumer.js:258-269 | an unparsable line gives exactly one parse warning naming it and changes nothing; a parsed line never gives a parse warning; a throw comes from routing the line's truthy value, keeps the registry and carries the effects routing issued before it |
| `Consumer.Deliver` | StreamConsumer.js:257-270 | every parse warning names an input line that does not parse; nothing is written |
| `Consumer.OnData` | StreamConsumer.js:251-272 | the buffer stays free of newlines; a chunk without a newline only extends the buffer |
| `Consumer.OnDataDispatchesLines` | StreamConsumer.js:251-272 | the text so far, cut at every newline, gives newline-free lines and the held-back tail; those lines are handed to `Deliver` in order, so their records are routed in order and bad lines only warned about; a chunk without a newline dispatches nothing |
| `Consumer.OnEnd` | StreamConsumer.js:279-282 | the buffer is reset to the empty string and the registry is unchanged |
| `Consumer.DeliverSkipsBadLines` | StreamConsumer.js:257-270 | apart from parse warnings, delivering lines is routing the truthy records they carry, in order: same registry, same effects, same throw |
| `Consumer.DeliverWarnsOncePerBadLine` | StreamConsumer.js:260-264 | when nothing throws, the parse warnings are exactly the unparsable lines, each once, in order |
| `Consumer.DeliverAppend` | StreamConsumer.js:257-270 | delivering two runs of lines in turn is delivering them together; a throw in the first run abandons the second |
| `Consumer.StepKeepsValid` | StreamConsumer.js:258-269 | handling one line keeps the registry invariant |
| `Consumer.DeliverKeepsValid` | StreamConsumer.js:257-270 | delivering lines keeps the registry invariant |
| `Consumer.EventsKeepValid` | StreamConsumer.js:251-282 | data and end events keep the consumer invariant: a valid registry and a newline-free buffer |
| `Consumer.OnDataTwoChunks` | StreamConsumer.js:251-272 | when no record of the first chunk throws, two chunks in turn give the same state and effects as their concatenation |

## Left out

- Listener wiring in `_start` (the `data`, `end` and `recovered` listeners and the `attachedListeners` flag) is event-emitter glue. The `warning` that the `end` listener emits before `_onEnd` is therefore not modelled.
- The transport's internals are outside the model. These are `client.start`, `stop`, `recover`, `write` and `started`. Each appears only as an effect or a parameter.
- The recovery continuation is not modelled. It calls `_resubscribe`, which `StreamConsumer.js` does not define. Only the `Recover` effect is kept.
- Timers are not modelled. This covers the timing of `_restartInteractionTimeout` and the `_recycle` chain it triggers. The watchdog appears only as the `Rearm` and `CancelWatchdog` effects.
- `http.request`, the request options and the leading newline write in `_connect` are I/O. Only the path is modelled.
- `JSON.parse` is a parameter. The error text in a parse warning depends on the parser, so `ParseWarning` carries only the line.
- Emitting `error` with no listener attached throws in Node's event emitter. That depends on listener wiring, so it is not modelled.
- `JSON.stringify` escaping is not modelled. Control messages are built by concatenation, which agrees with `JSON.stringify` for valid hashes (`Hashes.ValidHashIsPlain`).
- `streams` is a plain object. Inherited property names such as `constructor` are truthy there on lookup, and this is not modelled. In the source, a `success` or `warning` message naming such a property makes `_handleEvent` throw when it calls `deferred.resolve` (line 311) or `deferred.reject` (line 323); for `__proto__` it first writes `state` onto the shared object prototype (line 310). The model treats such a name as an absent hash. Arguments to `subscribe` and `unsubscribe` that are not strings are not modelled either.
- Subscriptions.Subscribe: applies the part of `subscribe` that runs once start resolves immediately. In the source it runs after the call returns. So in `Subscriptions.SetSubscriptions` each subscribe write is listed right after its own `Start` effect, whereas the source issues these writes after every `Start`.
- Subscriptions.SubscribeEach: takes one start outcome for the whole batch. The source calls `_start()`, and so `client.start()`, once per `subscribe` (line 109), and each of those promises may settle on its own. So a batch where only some starts fail, and `Subscriptions.ReconcileRegistry` for it, are not modelled: in the model, either every valid addition is subscribed or none is.
- Subscriptions.SetSubscriptions: reads `client.started()` twice. `started` is the value while the call runs, for the unsubscribe writes and the final start. `startedLater` is the value when the subscriptions go ahead after the start, and it holds for all of them. The source reads it again in each call.
- Subscriptions.Settle: a deferred fulfilled with an entry records a copy of the entry as it was then. In the source the subscription object is shared: a later `unsubscribe` sets `state = 'unsubscribed'` on the very object a subscriber received, and the model's recorded value does not follow that change.
- The `data[i] !== undefined` check in `_onData` always holds after a split, so it is not modelled.

=== FILE: common.dfy ===
/** Small shared vocabulary: the optional value used for JavaScript's `undefined`. */
module Common {

  /** `None` stands for a JavaScript `undefined` (or a `null` where the source
      tests with `== undefined`); `Some` for a present value. */
  datatype Option<+T> = None | Some(value: T) {

    /** The value, or `default` when absent (the source's `x || default`). */
    function GetOr(default: T): T {
      match this
      case Some(v) => v
      case None => default
    }
  }

  /** No element occurs twice. */
  predicate Distinct<T(==)>(s: seq<T>) {
    forall i, j :: 0 <= i < j < |s| ==> s[i] != s[j]
  }
}

=== FILE: consumer.dfy ===
/** The consumer as a whole: the held-back text of the stream, the registry of
    subscriptions, and what happens when a chunk of the stream arrives or the
    connection ends. */
module Consumer {
  import opened Common
  import opened Strings
  import opened Json
  import opened Effects
  import opened Framing
  import opened Subscriptions
  import opened Router

  /** What the consumer keeps between events: the text held back from the
      stream and the registry. */
  datatype Session = Session(buffer: string, registry: Registry)

  /** `JSON.parse` on one line: the value, or `None` when it throws. */
  type Parser = string -> Option<Value>

  /** The result of handling a run of lines: the registry after them, the
      effects in order, and whether the handler threw and abandoned the rest. */
  datatype Delivery = Delivery(registry: Registry, effects: seq<Effect>, threw: bool)

  /** The records a run of lines carries: the parsed values that are truthy. */
  function Records(lines: seq<string>, parse: Parser): (vs: seq<Value>)
    ensures |vs| <= |lines|
    ensures forall v :: v in vs <==> exists l :: l in lines && parse(l) == Some(v) && Truthy(v)
  {
    if |lines| == 0 then []
    else
      (match parse(lines[0]) case Some(v) => if Truthy(v) then [v] else [] case None => [])
      + Records(lines[1..], parse)
  }

  /** The lines that do not parse, in order. */
  function Malformed(lines: seq<string>, parse: Parser): (bad: seq<string>)
    ensures |bad| <= |lines|
    ensures forall l :: l in bad <==> l in lines && parse(l).None?
  {
    if |lines| == 0 then []
    else (if parse(lines[0]).None? then [lines[0]] else []) + Malformed(lines[1..], parse)
  }

  /** Routing records one after the other, stopping at the first that throws. */
  function RouteAll(r: Registry, vs: seq<Value>): (d: Delivery)
    ensures Quiet(d.effects)
    ensures |Emitted(d.effects)| <= |vs|
    ensures d.threw ==> exists v :: v in vs && Throws(v)
    decreases |vs|
  {
    if |vs| == 0 then Delivery(r, [], false)
    else
      match Route(r, vs[0])
      case Threw(es) => Delivery(r, es, true)
      case Handled(r', es) =>
        var rest := RouteAll(r', vs[1..]);
        EmittedAppend(es, rest.effects);
        Delivery(rest.registry, es + rest.effects, rest.threw)
  }

  /** One iteration of the loop of `_onData`: a line that does not parse is
      reported with a warning, a falsy value is skipped, and any other value is
      routed. */
  function Step(r: Registry, line: string, parse: Parser): (s: Delivery)
    ensures parse(line).None? ==> s == Delivery(r, [Emit(ParseWarning(line))], false)
    ensures parse(line).Some? ==> Quiet(s.effects)
    ensures s.threw ==>
      && s.registry == r && parse(line).Some? && Truthy(parse(line).value)
      && Route(r, parse(line).value) == Threw(s.effects)
    ensures forall l :: l in ParseWarnings(s.effects) ==> l == line && parse(l).None?
  {
    match parse(line)
    case None => Delivery(r, [Emit(ParseWarning(line))], false)
    case Some(v) =>
      if !Truthy(v) then Delivery(r, [], false)
      else
        match Route(r, v)
        case Threw(es) => NoParseWarnings(es); Delivery(r, es, true)
        case Handled(r', es) => NoParseWarnings(es); Delivery(r', es, false)
  }

  /** The loop of `_onData` over the complete lines, in order; when routing a
      record throws, the remaining lines are abandoned. */
  function Deliver(r: Registry, lines: seq<string>, parse: Parser): (d: Delivery)
    ensures forall l :: l in ParseWarnings(d.effects) ==> l in lines && parse(l).None?
    ensures forall e :: e in d.effects ==> !e.Write?
    decreases |lines|
  {
    if |lines| == 0 then Delivery(r, [], false)
    else
      var s := Step(r, lines[0], parse);
      if s.threw then s
      else
        var rest := Deliver(s.registry, lines[1..], parse);
        FiltersAppend(s.effects, rest.effects);
        Delivery(rest.registry, s.effects + rest.effects, rest.threw)
  }

  /** `_onData(chunk)`. */
  function OnData(c: Session, chunk: string, parse: Parser): (out: (Session, Delivery))
    ensures Newline !in c.buffer ==> Newline !in out.0.buffer
    ensures Newline !in chunk ==> out.0 == Session(c.buffer + chunk, c.registry) && out.1.effects == []
    ensures out.0.registry == out.1.registry
  {
    var f := FrameChunk(c.buffer, chunk);
    var d := Deliver(c.registry, f.lines, parse);
    (Session(f.rest, d.registry), d)
  }

  /** What `_onData` dispatches: the text so far, cut at every newline, with the
      last piece held back. The pieces before it are handed to `Deliver` in
      order, so each record among them is routed and each bad line warned about
      (`DeliverSkipsBadLines`); a chunk without a newline dispatches nothing. */
  lemma OnDataDispatchesLines(c: Session, chunk: string, parse: Parser)
    ensures
      var (c', d) := OnData(c, chunk, parse);
      exists lines: seq<string> ::
        && (Newline in chunk ==> |lines| >= 1)
        && (Newline !in chunk ==> lines == [])
        && Join(lines + [c'.buffer], Newline) == c.buffer + chunk
        && (forall i :: 0 <= i < |lines| ==> Newline !in lines[i])
        && d == Deliver(c.registry, lines, parse)
        && WithoutParseWarnings(d.effects) == RouteAll(c.registry, Records(lines, parse)).effects
  {
    var f := FrameChunk(c.buffer, chunk);
    DeliverSkipsBadLines(c.registry, f.lines, parse);
    if Newline !in chunk {
      assert [c.buffer + chunk][1..] == [];
    }
    assert OnData(c, chunk, parse).1 == Deliver(c.registry, f.lines, parse);
  }

  /** `_onEnd()`: the held-back text is dropped; nothing else changes. */
  function OnEnd(c: Session): (c': Session)
    ensures c'.buffer == "" && c'.registry == c.registry
  {
    Session("", c.registry)
  }

  /** Parse warnings aside, delivering lines is routing the records they carry:
      the same registry, the same other effects in the same order, and a throw
      exactly when routing the records throws. */
  lemma {:induction false} DeliverSkipsBadLines(r: Registry, lines: seq<string>, parse: Parser)
    ensures
      var d := Deliver(r, lines, parse);
      var routed := RouteAll(r, Records(lines, parse));
      && WithoutParseWarnings(d.effects) == routed.effects
      && d.registry == routed.registry
      && d.threw == routed.threw
    decreases |lines|
  {
    if |lines| > 0 {
      var line, tail := lines[0], lines[1..];
      var s := Step(r, line, parse);
      if !s.threw {
        DeliverSkipsBadLines(s.registry, tail, parse);
        FiltersAppend(s.effects, Deliver(s.registry, tail, parse).effects);
      } else {
        NoParseWarnings(s.effects);
      }
      StepSkipsBadLine(r, line, tail, parse);
    }
  }

  /** `DeliverSkipsBadLines` for the first line. */
  lemma StepSkipsBadLine(r: Registry, line: string, tail: seq<string>, parse: Parser)
    ensures
      var s := Step(r, line, parse);
      var vs := Records(tail, parse);
      var routed := RouteAll(s.registry, vs);
      && (s.threw ==> RouteAll(r, Records([line] + tail, parse)) == s)
      && (!s.threw ==>
            RouteAll(r, Records([line] + tail, parse))
              == Delivery(routed.registry, WithoutParseWarnings(s.effects) + routed.effects, routed.threw))
  {
    var lines := [line] + tail;
    assert lines[0] == line && lines[1..] == tail;
    var vs := Records(tail, parse);
    match parse(line)
    case None =>
      assert Records(lines, parse) == vs;
    case Some(v) =>
      if Truthy(v) {
        assert Records(lines, parse) == [v] + vs;
        assert ([v] + vs)[1..] == vs;
        NoParseWarnings(Step(r, line, parse).effects);
      } else {
        assert Records(lines, parse) == vs;
      }
  }

  /** When nothing throws, every line that does not parse is reported exactly
      once, in order, and nothing else is reported as a parse warning. */
  lemma {:induction false} DeliverWarnsOncePerBadLine(r: Registry, lines: seq<string>, parse: Parser)
    requires !Deliver(r, lines, parse).threw
    ensures ParseWarnings(Deliver(r, lines, parse).effects) == Malformed(lines, parse)
    decreases |lines|
  {
    if |lines| > 0 {
      var s := Step(r, lines[0], parse);
      DeliverWarnsOncePerBadLine(s.registry, lines[1..], parse);
      FiltersAppend(s.effects, Deliver(s.registry, lines[1..], parse).effects);
      if parse(lines[0]).Some? {
        NoParseWarnings(s.effects);
      }
    }
  }

  /** Delivering two runs of lines in turn is delivering them together, and a
      throw in the first run abandons the second. */
  lemma {:induction false} DeliverAppend(r: Registry, l1: seq<string>, l2: seq<string>, parse: Parser)
    ensures
      var d1 := Deliver(r, l1, parse);
      var d2 := Deliver(d1.registry, l2, parse);
      Deliver(r, l1 + l2, parse) ==
        if d1.threw then d1 else Delivery(d2.registry, d1.effects + d2.effects, d2.threw)
    decreases |l1|
  {
    if |l1| == 0 {
      assert l1 + l2 == l2;
    } else {
      var l := l1 + l2;
      assert l[0] == l1[0] && l[1..] == l1[1..] + l2;
      var s := Step(r, l1[0], parse);
      if !s.threw {
        DeliverAppend(s.registry, l1[1..], l2, parse);
        var t1 := Deliver(s.registry, l1[1..], parse);
        if !t1.threw {
          var d2 := Deliver(t1.registry, l2, parse);
          assert s.effects + (t1.effects + d2.effects) == (s.effects + t1.effects) + d2.effects;
        }
      }
    }
  }

  /** Delivering lines keeps the registry well formed. */
  lemma {:induction false} DeliverKeepsValid(r: Registry, lines: seq<string>, parse: Parser)
    requires Valid(r)
    ensures Valid(Deliver(r, lines, parse).registry)
    decreases |lines|
  {
    if |lines| > 0 {
      var tail := lines[1..];
      var s := Step(r, lines[0], parse);
      StepKeepsValid(r, lines[0], parse);
      DeliverKeepsValid(s.registry, tail, parse);
    }
  }

  /** Handling one line keeps the registry well formed. */
  lemma StepKeepsValid(r: Registry, line: string, parse: Parser)
    requires Valid(r)
    ensures Valid(Step(r, line, parse).registry)
  {
    match parse(line)
    case Some(v) =>
      if Truthy(v) && Route(r, v).Handled? {
        RouteKeepsValid(r, v);
      }
    case None =>
  }

  /** The consumer's invariant: a well-formed registry, and held-back text
      that has no newline in it. */
  ghost predicate SessionValid(c: Session) {
    Valid(c.registry) && Newline !in c.buffer
  }

  /** Chunks and the end of the connection keep the consumer's invariant. */
  lemma EventsKeepValid(c: Session, chunk: string, parse: Parser)
    requires SessionValid(c)
    ensures SessionValid(OnData(c, chunk, parse).0)
    ensures SessionValid(OnEnd(c))
  {
    DeliverKeepsValid(c.registry, FrameChunk(c.buffer, chunk).lines, parse);
  }

  /** How the stream is cut into chunks does not matter as long as no record of
      the first chunk makes the handler throw: two chunks in turn have the
      effects of their concatenation. */
  lemma OnDataTwoChunks(c: Session, a: string, b: string, parse: Parser)
    requires Newline !in c.buffer
    requires !OnData(c, a, parse).1.threw
    ensures
      var (c1, d1) := OnData(c, a, parse);
      var (c2, d2) := OnData(c1, b, parse);
      var (c', d) := OnData(c, a + b, parse);
      c2 == c' && d1.effects + d2.effects == d.effects && d2.threw == d.threw
  {
    var f1 := FrameChunk(c.buffer, a);
    FrameTwoChunks(c.buffer, a, b);
    DeliverAppend(c.registry, f1.lines, FrameChunk(f1.rest, b).lines, parse);
  }
}

=== FILE: effects.dfy ===
/** What the consumer does to the outside world, as data: events it emits to
    its listeners and calls it makes on the transport and the watchdog timer. */
module Effects {
  import opened Common
  import opened Json

  /** The events the consumer emits, one constructor per event name and shape. */
  datatype Event =
    | Error(reason: Option<Value>)               // 'error', built from a failure record's message
    | Success(message: string, record: Value)    // 'success', with the status message and the record
    | Warning(message: string, record: Value)    // 'warning', with the status message and the record
    | ParseWarning(line: string)                 // 'warning' for a line JSON.parse rejected
    | Delete(record: Value)                      // 'delete'
    | Tick(record: Value)                        // 'tick'
    | Interaction(record: Value)                 // 'interaction'
    | UnknownEvent(record: Value)                // 'unknownEvent', the record unchanged

  datatype Effect =
    | Emit(event: Event)
    | Write(body: string)      // client.write of a control message
    | Rearm                    // the interaction watchdog is restarted
    | CancelWatchdog           // the interaction watchdog is cleared
    | Recover                  // client.recover(), followed by a resubscription attempt
    | Start                    // the consumer's start: listeners attached once, client.start()
    | Stop                     // client.stop()

  /** Effects that neither write to the transport nor report a parse warning. */
  predicate Quiet(effects: seq<Effect>) {
    forall e :: e in effects ==> !e.Write? && !(e.Emit? && e.event.ParseWarning?)
  }

  /** The lines reported by parse warnings, in order. */
  function ParseWarnings(effects: seq<Effect>): (lines: seq<string>)
    ensures |lines| <= |effects|
  {
    if |effects| == 0 then []
    else
      (if effects[0].Emit? && effects[0].event.ParseWarning? then [effects[0].event.line] else [])
      + ParseWarnings(effects[1..])
  }

  /** The effects other than parse warnings, in order. */
  function WithoutParseWarnings(effects: seq<Effect>): (rest: seq<Effect>)
    ensures |rest| <= |effects|
    ensures forall e :: e in rest ==> e in effects && !(e.Emit? && e.event.ParseWarning?)
  {
    if |effects| == 0 then []
    else
      (if effects[0].Emit? && effects[0].event.ParseWarning? then [] else [effects[0]])
      + WithoutParseWarnings(effects[1..])
  }

  /** The events emitted, in order. */
  function Emitted(effects: seq<Effect>): (events: seq<Event>)
    ensures |events| <= |effects|
    ensures forall e :: e in events ==> Emit(e) in effects
  {
    if |effects| == 0 then []
    else (if effects[0].Emit? then [effects[0].event] else []) + Emitted(effects[1..])
  }

  /** The bodies written to the transport, in order. */
  function Written(effects: seq<Effect>): (bodies: seq<string>)
    ensures |bodies| <= |effects|
  {
    if |effects| == 0 then []
    else (if effects[0].Write? then [effects[0].body] else []) + Written(effects[1..])
  }

  /** How many times the consumer is started. */
  function Starts(effects: seq<Effect>): (n: nat)
    ensures n <= |effects|
    ensures n == 0 <==> Start !in effects
  {
    if |effects| == 0 then 0
    else
      var rest := Starts(effects[1..]);
      assert forall e :: e in effects <==> e == effects[0] || e in effects[1..];
      (if effects[0] == Start then 1 else 0) + rest
  }

  /** `Written` and `Starts` distribute over concatenation. */
  lemma {:induction false} WrittenAppend(a: seq<Effect>, b: seq<Effect>)
    ensures Written(a + b) == Written(a) + Written(b)
    ensures Starts(a + b) == Starts(a) + Starts(b)
    decreases |a|
  {
    if |a| > 0 {
      assert (a + b)[0] == a[0];
      assert (a + b)[1..] == a[1..] + b;
      WrittenAppend(a[1..], b);
      var head := if a[0].Write? then [a[0].body] else [];
      assert Written(a + b) == head + (Written(a[1..]) + Written(b));
    } else {
      assert a + b == b;
    }
  }

  /** The writes and starts of a rearm, two runs of effects and a tail that
      is empty or one start. */
  lemma WrittenAround(a: seq<Effect>, b: seq<Effect>, tail: seq<Effect>)
    requires tail == [] || tail == [Start]
    ensures Written([Rearm] + a + b + tail) == Written(a) + Written(b)
    ensures Starts([Rearm] + a + b + tail) == Starts(a) + Starts(b) + |tail|
  {
    var x := [Rearm] + a;
    var y := x + b;
    assert Written(x) == Written(a) && Starts(x) == Starts(a) by {
      assert x[0] == Rearm && x[1..] == a;
    }
    assert Written(y) == Written(a) + Written(b) && Starts(y) == Starts(a) + Starts(b) by {
      WrittenAppend(x, b);
    }
    assert Written(tail) == [] && Starts(tail) == |tail| by {
      if tail != [] {
        assert tail[1..] == [];
      }
    }
    WrittenAppend(y, tail);
  }

  /** Both filters distribute over concatenation. */
  lemma {:induction false} FiltersAppend(a: seq<Effect>, b: seq<Effect>)
    ensures ParseWarnings(a + b) == ParseWarnings(a) + ParseWarnings(b)
    ensures WithoutParseWarnings(a + b) == WithoutParseWarnings(a) + WithoutParseWarnings(b)
    decreases |a|
  {
    if |a| > 0 {
      assert (a + b)[0] == a[0];
      assert (a + b)[1..] == a[1..] + b;
      FiltersAppend(a[1..], b);
    } else {
      assert a + b == b;
    }
  }

  /** `Emitted` distributes over concatenation. */
  lemma {:induction false} EmittedAppend(a: seq<Effect>, b: seq<Effect>)
    ensures Emitted(a + b) == Emitted(a) + Emitted(b)
    decreases |a|
  {
    if |a| > 0 {
      var head := if a[0].Emit? then [a[0].event] else [];
      assert (a + b)[0] == a[0];
      assert (a + b)[1..] == a[1..] + b;
      EmittedAppend(a[1..], b);
      assert Emitted(a + b) == head + (Emitted(a[1..]) + Emitted(b));
    } else {
      assert a + b == b;
    }
  }

  /** Effects with no parse warning pass through `WithoutParseWarnings` unchanged. */
  lemma {:induction false} NoParseWarnings(effects: seq<Effect>)
    requires Quiet(effects)
    ensures WithoutParseWarnings(effects) == effects
    ensures ParseWarnings(effects) == []
    decreases |effects|
  {
    if |effects| > 0 {
      assert effects[0] in effects;
      assert forall e :: e in effects[1..] ==> e in effects;
      NoParseWarnings(effects[1..]);
      assert effects == [effects[0]] + effects[1..];
    }
  }
}

=== FILE: framing.dfy ===
/** The line framing of `_onData`: the stream arrives in arbitrary chunks, each
    record ends with a newline, and the unfinished tail is held back until the
    rest of its line arrives. */
module Framing {
  import opened Strings

  const Newline := '\n'

  /** The complete lines a chunk releases and the text held back after it. */
  datatype Frame = Frame(lines: seq<string>, rest: string)

  /** A string containing the delimiter splits into at least two pieces. */
  lemma {:induction false} SplitAtDelimiter(s: string, d: char)
    requires d in s
    ensures |Split(s, d)| >= 2
  {
    JoinSplit(s, d);
  }

  /** Appending `chunk` to the held-back text `buffer`. The buffer is split
      into lines only when the chunk itself contains a newline; the last piece
      of the split is held back. */
  function FrameChunk(buffer: string, chunk: string): (f: Frame)
    ensures Newline !in chunk ==> f == Frame([], buffer + chunk)
    ensures Newline in chunk ==>
      && |f.lines| >= 1
      && Join(f.lines + [f.rest], Newline) == buffer + chunk
      && Newline !in f.rest
      && forall i :: 0 <= i < |f.lines| ==> Newline !in f.lines[i]
  {
    var all := buffer + chunk;
    if Newline !in chunk then Frame([], all)
    else
      var parts := Split(all, Newline);
      SplitAtDelimiter(all, Newline);
      JoinSplit(all, Newline);
      assert parts[..|parts| - 1] + [parts[|parts| - 1]] == parts;
      Frame(parts[..|parts| - 1], parts[|parts| - 1])
  }

  /** Framing is determined by the text: any way of writing `buffer + chunk`
      as newline-free lines followed by a newline-free tail is the one
      `FrameChunk` finds. */
  lemma FrameIsUnique(buffer: string, chunk: string, lines: seq<string>, rest: string)
    requires Newline in chunk
    requires |lines| >= 1
    requires forall i :: 0 <= i < |lines| ==> Newline !in lines[i]
    requires Newline !in rest
    requires Join(lines + [rest], Newline) == buffer + chunk
    ensures FrameChunk(buffer, chunk) == Frame(lines, rest)
  {
    var parts := lines + [rest];
    assert forall i :: 0 <= i < |parts| ==> Newline !in parts[i] by {
      forall i | 0 <= i < |parts| ensures Newline !in parts[i] {
        if i < |lines| { assert parts[i] == lines[i]; }
      }
    }
    SplitJoin(parts, Newline);
    assert parts[..|parts| - 1] == lines;
  }

  /** Two chunks framed one after the other release the same lines, and hold
      back the same tail, as their concatenation framed at once, provided the
      held-back text starts without a newline (which framing maintains). */
  lemma FrameTwoChunks(buffer: string, a: string, b: string)
    requires Newline !in buffer
    ensures
      var f1 := FrameChunk(buffer, a);
      var f2 := FrameChunk(f1.rest, b);
      var f := FrameChunk(buffer, a + b);
      f1.lines + f2.lines == f.lines && f2.rest == f.rest
  {
    var f1 := FrameChunk(buffer, a);
    var f := FrameChunk(buffer, a + b);
    assert buffer + (a + b) == (buffer + a) + b;
    if Newline in a {
      assert Newline in a + b by { assert a[..] == (a + b)[..|a|]; }
      var ps := Split(buffer + a, Newline);
      SplitAtDelimiter(buffer + a, Newline);
      SplitAppend(buffer + a, b, Newline);
      if Newline !in b {
        SplitWhole(f1.rest + b, Newline);
      }
    } else if Newline in b {
      assert f1.rest == buffer + a;
      assert Newline in a + b by { assert b == (a + b)[|a|..]; }
    } else {
      assert Newline !in buffer + a;
      assert Newline !in a + b;
    }
  }
}

=== FILE: hashes.dfy ===
/** Stream hashes: the identifier format and the control messages that name them. */
module Hashes {
  import opened Strings

  /** A character of the class `[a-f0-9]` under the `i` flag. */
  predicate IsHexDigit(c: char) {
    ('0' <= c <= '9') || ('a' <= c <= 'f') || ('A' <= c <= 'F')
  }

  /** `/^[a-f0-9]{32}$/i`: exactly thirty-two hexadecimal characters, nothing before or after. */
  predicate ValidHash(h: string) {
    |h| == 32 && forall i :: 0 <= i < |h| ==> IsHexDigit(h[i])
  }

  /** The validator, checking one character at a time the way the regular
      expression's character class does: fold the case, then compare against
      the lower-case class. */
  method ValidateHash(h: string) returns (ok: bool)
    ensures ok <==> ValidHash(h)
  {
    if |h| != 32 {
      return false;
    }
    var i := 0;
    while i < |h|
      invariant 0 <= i <= |h|
      invariant forall k :: 0 <= k < i ==> IsHexDigit(h[k])
    {
      var c := Lower(h[i]);
      if !(('0' <= c <= '9') || ('a' <= c <= 'f')) {
        return false;
      }
      i := i + 1;
    }
    return true;
  }

  /** Hashes the validator accepts and rejects. */
  lemma ValidateHashExamples()
    ensures ValidHash("69ec6f20f05f513e3b144b90fecc2e3f")
    ensures ValidHash("69EC6F20F05F513E3B144B90FECC2E3F")
    ensures !ValidHash("")
    ensures !ValidHash("invalidHash")
    ensures !ValidHash("69ec6f20f05f513e3b144b90fecc2e3fa")
    ensures !ValidHash("69ec6f20f05f513e3b144b90fecc2e3")
    ensures !ValidHash("69ec6f20f05f513e3b144b90fecc2e3 ")
  {
    var bad := "69ec6f20f05f513e3b144b90fecc2e3 ";
    assert !IsHexDigit(bad[31]);
  }

  /** A valid hash has no whitespace, no comma and nothing JSON.stringify would
      escape, so it can be written into a control message or a comma-separated
      query parameter verbatim. */
  lemma ValidHashIsPlain(h: string)
    requires ValidHash(h)
    ensures forall i :: 0 <= i < |h| ==> !IsSpace(h[i]) && h[i] != ',' && h[i] != '"' && h[i] != '\\'
  {
  }

  const SubscribePrefix := "{\"action\":\"subscribe\",\"hash\":\""
  const UnsubscribePrefix := "{\"action\":\"unsubscribe\",\"hash\":\""
  const MessageEnd := "\"}"

  /** `JSON.stringify({'action': 'subscribe', 'hash': h})` for a hash with nothing to escape. */
  function SubscribeMessage(h: string): (m: string)
    ensures MessageHash(m) == h
  {
    var m := SubscribePrefix + h + MessageEnd;
    assert m[..|SubscribePrefix|] == SubscribePrefix;
    assert m[|SubscribePrefix|..|m| - |MessageEnd|] == h;
    m
  }

  /** `JSON.stringify({'action': 'unsubscribe', 'hash': h})` for a hash with nothing to escape. */
  function UnsubscribeMessage(h: string): (m: string)
    ensures MessageHash(m) == h
  {
    var m := UnsubscribePrefix + h + MessageEnd;
    assert m[..|UnsubscribePrefix|] == UnsubscribePrefix;
    assert m[..|SubscribePrefix|] != SubscribePrefix by {
      assert m[11] == 'u' && SubscribePrefix[11] == 's';
    }
    assert m[|UnsubscribePrefix|..|m| - |MessageEnd|] == h;
    m
  }

  /** `JSON.stringify({'action': 'stop'})`: shorter than any message that names a hash. */
  function StopMessage(): (m: string)
    ensures forall h :: m != SubscribeMessage(h) && m != UnsubscribeMessage(h)
  {
    "{\"action\":\"stop\"}"
  }

  /** The hash a subscribe or unsubscribe message names, read back out of it. */
  function MessageHash(body: string): (h: string)
    ensures |h| <= |body|
  {
    if |body| >= |SubscribePrefix| + |MessageEnd| && body[..|SubscribePrefix|] == SubscribePrefix
    then body[|SubscribePrefix|..|body| - |MessageEnd|]
    else if |body| >= |UnsubscribePrefix| + |MessageEnd| && body[..|UnsubscribePrefix|] == UnsubscribePrefix
    then body[|UnsubscribePrefix|..|body| - |MessageEnd|]
    else ""
  }

  /** Each control message names exactly its hash, and the two kinds never
      coincide. */
  lemma ControlMessagesNameTheirHash(h: string, g: string)
    ensures MessageHash(SubscribeMessage(h)) == h
    ensures MessageHash(UnsubscribeMessage(h)) == h
    ensures SubscribeMessage(h) != UnsubscribeMessage(g)
  {
    var s := SubscribeMessage(h);
    var u := UnsubscribeMessage(g);
    assert s[11] == 's' && u[11] == 'u';
  }

  /** The subscribe messages for `hs`, one per hash, in order. */
  function SubscribeMessages(hs: seq<string>): (ms: seq<string>)
    ensures |ms| == |hs|
    ensures forall i :: 0 <= i < |hs| ==> MessageHash(ms[i]) == hs[i] && ms[i] == SubscribeMessage(hs[i])
    decreases |hs|
  {
    if |hs| == 0 then [] else [SubscribeMessage(hs[0])] + SubscribeMessages(hs[1..])
  }

  /** The unsubscribe messages for `hs`, one per hash, in order. */
  function UnsubscribeMessages(hs: seq<string>): (ms: seq<string>)
    ensures |ms| == |hs|
    ensures forall i :: 0 <= i < |hs| ==> MessageHash(ms[i]) == hs[i] && ms[i] == UnsubscribeMessage(hs[i])
    decreases |hs|
  {
    if |hs| == 0 then [] else [UnsubscribeMessage(hs[0])] + UnsubscribeMessages(hs[1..])
  }
}

=== FILE: json.dfy ===
/** The values `JSON.parse` can produce, and the two JavaScript operations the
    consumer applies to them: truthiness and property access. */
module Json {
  import opened Common

  datatype Value =
    | Null
    | Bool(b: bool)
    | Number(n: real)
    | Str(s: string)
    | Array(items: seq<Value>)
    | Object(fields: map<string, Value>)

  /** JavaScript's `ToBoolean` on a parsed value: `null`, `false`, `0` and `""`
      are falsy; every other value, every array and every object is truthy. */
  function Truthy(v: Value): (t: bool)
    ensures !t <==> v in {Null, Bool(false), Number(0.0), Str("")}
  {
    match v
    case Null => false
    case Bool(b) => b
    case Number(n) => n != 0.0
    case Str(s) => s != ""
    case Array(_) => true
    case Object(_) => true
  }

  /** ECMAScript's `ToString` on a parsed value throws a `TypeError`. An object
      whose own keys include `toString` has, as that property, a parsed value,
      which is not callable; `valueOf`, own or inherited, gives no primitive
      either, so the conversion fails. Any other object converts through
      `Object.prototype.toString`. An array converts by joining its items, so
      it throws when one of them does. Other values always convert. */
  predicate ToStringThrows(v: Value) {
    match v
    case Object(fields) => "toString" in fields
    case Array(items) => exists i :: 0 <= i < |items| && ToStringThrows(items[i])
    case _ => false
  }

  /** `v.key` for the record keys the consumer reads (`status`, `message`,
      `data`, `deleted`, `tick`, `interaction`): an own field of an object, and
      `undefined` on anything else, since arrays, strings, numbers and booleans
      have no such property. Reading a property of `null` throws in the source;
      callers deal with `Null` before asking. */
  function Field(v: Value, key: string): Option<Value> {
    if v.Object? && key in v.fields then Some(v.fields[key]) else None
  }
}

=== FILE: patterns.dfy ===
/** The two case-insensitive regular expressions that pull a stream hash out of
    a status message: `successfully subscribed to hash (\S+)` and
    `The hash (\S+) doesn't exist`, both with the `i` flag and matched with
    `String.prototype.match`, which reports the leftmost match. */
module Patterns {
  import opened Common
  import opened Strings

  const SubscribedPrefix := "successfully subscribed to hash "
  const MissingPrefix := "the hash "
  const MissingSuffix := " doesn't exist"

  /** The length of the run of non-whitespace characters starting at `i`. */
  function RunLength(msg: string, i: nat): (n: nat)
    requires i <= |msg|
    ensures i + n <= |msg|
    ensures forall k :: i <= k < i + n ==> !IsSpace(msg[k])
    ensures i + n == |msg| || IsSpace(msg[i + n])
    decreases |msg| - i
  {
    if i == |msg| || IsSpace(msg[i]) then 0 else 1 + RunLength(msg, i + 1)
  }

  /** The regular expression `pre(\S+)suf` matches `msg` starting at `p` and
      captures `h`: `pre` case-insensitively, then a non-empty run of
      non-whitespace characters taken greedily (so it ends at whitespace or at
      the end of the message), then `suf` case-insensitively. Both suffixes used
      here are empty or begin with a space, so backtracking into the run can
      never produce a different match. */
  predicate MatchAt(msg: string, pre: string, suf: string, p: int, h: string) {
    var i := p + |pre|;
    && CiAt(msg, p, pre)
    && |h| >= 1 && i + |h| <= |msg| && msg[i..i + |h|] == h
    && (forall k :: 0 <= k < |h| ==> !IsSpace(h[k]))
    && (i + |h| == |msg| || IsSpace(msg[i + |h|]))
    && CiAt(msg, i + |h|, suf)
  }

  /** The capture of a match at position `q`, if the pattern matches there. */
  function CaptureAt(msg: string, pre: string, suf: string, q: nat): (r: Option<string>)
    ensures r.Some? ==> MatchAt(msg, pre, suf, q, r.value)
    ensures r.None? ==> forall h :: !MatchAt(msg, pre, suf, q, h)
  {
    if CiAt(msg, q, pre) then
      var i := q + |pre|;
      var n := RunLength(msg, i);
      MatchesAfterPrefix(msg, pre, suf, q);
      if n > 0 && CiAt(msg, i + n, suf) then
        RunIsMatch(msg, pre, suf, q);
        Some(msg[i..i + n])
      else None
    else None
  }

  /** After the prefix, the maximal run followed by the suffix is a match. */
  lemma RunIsMatch(msg: string, pre: string, suf: string, q: nat)
    requires CiAt(msg, q, pre)
    requires var i := q + |pre|; var n := RunLength(msg, i); n > 0 && CiAt(msg, i + n, suf)
    ensures var i := q + |pre|; MatchAt(msg, pre, suf, q, msg[i..i + RunLength(msg, i)])
  {
    var i := q + |pre|;
    var h := msg[i..i + RunLength(msg, i)];
    forall k | 0 <= k < |h| ensures !IsSpace(h[k]) {
      assert h[k] == msg[i + k];
    }
  }

  /** A match after the prefix needs the maximal run to be non-empty and
      followed by the suffix. */
  lemma MatchesAfterPrefix(msg: string, pre: string, suf: string, q: nat)
    requires q + |pre| <= |msg|
    ensures var i := q + |pre|; var n := RunLength(msg, i);
      forall h :: MatchAt(msg, pre, suf, q, h) ==> n > 0 && CiAt(msg, i + n, suf)
  {
    var i := q + |pre|;
    var n := RunLength(msg, i);
    forall h | MatchAt(msg, pre, suf, q, h) ensures n > 0 && CiAt(msg, i + n, suf) {
      MatchNeedsRun(msg, pre, suf, q, h);
    }
  }

  /** `MatchesAfterPrefix` for one capture. */
  lemma MatchNeedsRun(msg: string, pre: string, suf: string, q: nat, h: string)
    requires MatchAt(msg, pre, suf, q, h)
    ensures var i := q + |pre|; i <= |msg| && RunLength(msg, i) > 0 && CiAt(msg, i + RunLength(msg, i), suf)
  {
    assert |h| == RunLength(msg, q + |pre|) by {
      MatchIsMaximalRun(msg, pre, suf, q, h);
    }
  }

  /** The leftmost position at or after `p` where the pattern matches. */
  function FirstMatch(msg: string, pre: string, suf: string, p: nat): (q: Option<nat>)
    requires p <= |msg|
    ensures q.Some? ==>
      && p <= q.value <= |msg|
      && CaptureAt(msg, pre, suf, q.value).Some?
      && forall k :: p <= k < q.value ==> CaptureAt(msg, pre, suf, k).None?
    ensures q.None? ==> forall k :: p <= k <= |msg| ==> CaptureAt(msg, pre, suf, k).None?
    decreases |msg| - p
  {
    if CaptureAt(msg, pre, suf, p).Some? then Some(p)
    else if p == |msg| then None
    else FirstMatch(msg, pre, suf, p + 1)
  }

  /** `msg.match(/pre(\S+)suf/i)[1]`, or `None` when there is no match. */
  function Capture(msg: string, pre: string, suf: string): Option<string> {
    match FirstMatch(msg, pre, suf, 0)
    case Some(q) => CaptureAt(msg, pre, suf, q)
    case None => None
  }

  /** `Capture` is the regular expression's leftmost match: it captures `h`
      exactly when the pattern matches capturing `h` at some position and at no
      earlier one, and it finds nothing exactly when the pattern matches nowhere. */
  lemma CaptureIsLeftmostMatch(msg: string, pre: string, suf: string, h: string)
    ensures Capture(msg, pre, suf) == Some(h) <==>
      exists q :: 0 <= q <= |msg| && MatchAt(msg, pre, suf, q, h)
        && forall k, g :: 0 <= k < q ==> !MatchAt(msg, pre, suf, k, g)
    ensures Capture(msg, pre, suf) == None <==>
      forall k, g :: 0 <= k <= |msg| ==> !MatchAt(msg, pre, suf, k, g)
  {
    var first := FirstMatch(msg, pre, suf, 0);
    if first.Some? {
      var q := first.value;
      var c := CaptureAt(msg, pre, suf, q).value;
      assert MatchAt(msg, pre, suf, q, c);
      forall k, g | 0 <= k < q ensures !MatchAt(msg, pre, suf, k, g) {
        assert CaptureAt(msg, pre, suf, k).None?;
      }
      forall q' | 0 <= q' <= |msg| && MatchAt(msg, pre, suf, q', h)
        && (forall k, g :: 0 <= k < q' ==> !MatchAt(msg, pre, suf, k, g))
        ensures Capture(msg, pre, suf) == Some(h)
      {
        LeftmostIsFirst(msg, pre, suf, q', h);
        MatchIsUnique(msg, pre, suf, q', h, c);
      }
    } else {
      forall k, g | 0 <= k <= |msg| ensures !MatchAt(msg, pre, suf, k, g) {
        assert CaptureAt(msg, pre, suf, k).None?;
      }
    }
  }

  /** A match with no match before it is the one the scan finds. */
  lemma LeftmostIsFirst(msg: string, pre: string, suf: string, q: nat, h: string)
    requires q <= |msg| && MatchAt(msg, pre, suf, q, h)
    requires forall k, g :: 0 <= k < q ==> !MatchAt(msg, pre, suf, k, g)
    ensures FirstMatch(msg, pre, suf, 0) == Some(q)
  {
    var first := FirstMatch(msg, pre, suf, 0);
    assert CaptureAt(msg, pre, suf, q).Some?;
    assert first.Some? && first.value <= q;
    var c := CaptureAt(msg, pre, suf, first.value).value;
    assert MatchAt(msg, pre, suf, first.value, c);
  }

  /** At a given position the pattern captures at most one string. */
  lemma MatchIsUnique(msg: string, pre: string, suf: string, p: int, h: string, g: string)
    requires MatchAt(msg, pre, suf, p, h) && MatchAt(msg, pre, suf, p, g)
    ensures h == g
  {
    MatchIsMaximalRun(msg, pre, suf, p, h);
    MatchIsMaximalRun(msg, pre, suf, p, g);
  }

  /** A capture is the maximal run of non-whitespace after the prefix. */
  lemma MatchIsMaximalRun(msg: string, pre: string, suf: string, p: int, h: string)
    requires MatchAt(msg, pre, suf, p, h)
    ensures p + |pre| <= |msg| && |h| == RunLength(msg, p + |pre|)
    ensures h == msg[p + |pre|..p + |pre| + |h|]
  {
    var i := p + |pre|;
    forall k | i <= k < i + |h| ensures !IsSpace(msg[k]) {
      assert msg[k] == msg[i..i + |h|][k - i] == h[k - i];
    }
    RunIsMaximal(msg, i, |h|);
  }

  /** A whitespace-free run that stops at whitespace or at the end of the
      message is the one `RunLength` measures. */
  lemma {:induction false} RunIsMaximal(msg: string, i: nat, n: nat)
    requires i + n <= |msg|
    requires forall k :: i <= k < i + n ==> !IsSpace(msg[k])
    requires i + n == |msg| || IsSpace(msg[i + n])
    ensures n == RunLength(msg, i)
    decreases n
  {
    if n > 0 {
      assert !IsSpace(msg[i]);
      RunIsMaximal(msg, i + 1, n - 1);
    }
  }

  /** The hash a `success` status message reports as subscribed. */
  function SubscribedHash(message: string): (h: Option<string>)
    ensures h.Some? ==>
      exists q :: && 0 <= q <= |message| && MatchAt(message, SubscribedPrefix, "", q, h.value)
                  && forall k, g :: 0 <= k < q ==> !MatchAt(message, SubscribedPrefix, "", k, g)
    ensures h.None? ==> forall k, g :: 0 <= k <= |message| ==> !MatchAt(message, SubscribedPrefix, "", k, g)
  {
    var c := Capture(message, SubscribedPrefix, "");
    CaptureIsLeftmostMatch(message, SubscribedPrefix, "", c.GetOr(""));
    c
  }

  /** The hash a `warning` status message reports as missing. */
  function MissingHash(message: string): (h: Option<string>)
    ensures h.Some? ==>
      exists q :: && 0 <= q <= |message| && MatchAt(message, MissingPrefix, MissingSuffix, q, h.value)
                  && forall k, g :: 0 <= k < q ==> !MatchAt(message, MissingPrefix, MissingSuffix, k, g)
    ensures h.None? ==> forall k, g :: 0 <= k <= |message| ==> !MatchAt(message, MissingPrefix, MissingSuffix, k, g)
  {
    var c := Capture(message, MissingPrefix, MissingSuffix);
    CaptureIsLeftmostMatch(message, MissingPrefix, MissingSuffix, c.GetOr(""));
    c
  }

  /** A match at the very start of the message is the one reported. */
  lemma MatchAtStart(msg: string, pre: string, suf: string, h: string)
    requires MatchAt(msg, pre, suf, 0, h)
    ensures Capture(msg, pre, suf) == Some(h)
  {
    CaptureIsLeftmostMatch(msg, pre, suf, h);
  }

  /** A message made of a case variant of the prefix, a non-blank word and
      the suffix yields that word, whenever the suffix is empty or starts with
      whitespace. */
  lemma CapturesWordAfterPrefix(written: string, pre: string, h: string, suf: string)
    requires CiEqual(written, pre)
    requires |h| >= 1 && forall k :: 0 <= k < |h| ==> !IsSpace(h[k])
    requires suf == [] || IsSpace(suf[0])
    ensures Capture(written + h + suf, pre, suf) == Some(h)
  {
    var msg := written + h + suf;
    assert msg[..|pre|] == written;
    assert msg[|pre|..|pre| + |h|] == h;
    assert msg[|pre| + |h|..|msg|] == suf;
    MatchAtStart(msg, pre, suf, h);
  }

  /** The confirmation the service sends, in its own capitalisation, names the
      subscribed hash. */
  lemma SubscribedNamesHash(h: string)
    requires |h| >= 1 && forall k :: 0 <= k < |h| ==> !IsSpace(h[k])
    ensures SubscribedHash("Successfully subscribed to hash " + h) == Some(h)
  {
    var written := "Successfully subscribed to hash ";
    assert CiEqual(written, SubscribedPrefix) by {
      assert Lower(written[0]) == 's';
      assert written[1..] == SubscribedPrefix[1..];
    }
    CapturesWordAfterPrefix(written, SubscribedPrefix, h, "");
    assert written + h + "" == written + h;
  }

  /** The refusal the service sends names the missing hash. */
  lemma MissingNamesHash(h: string)
    requires |h| >= 1 && forall k :: 0 <= k < |h| ==> !IsSpace(h[k])
    ensures MissingHash("The hash " + h + " doesn't exist") == Some(h)
  {
    var written := "The hash ";
    assert CiEqual(written, MissingPrefix) by {
      assert Lower(written[0]) == 't';
      assert written[1..] == MissingPrefix[1..];
    }
    CapturesWordAfterPrefix(written, MissingPrefix, h, MissingSuffix);
  }
}

=== FILE: router.dfy ===
/** `_handleEvent`: how one parsed record from the stream is classified and
    what the consumer does about it. The checks run in the source's order, and
    the first that applies decides. */
module Router {
  import opened Common
  import opened Json
  import opened Strings
  import opened Effects
  import opened Hashes
  import opened Patterns
  import opened Subscriptions

  /** The failure message the service sends after a stop message; it is the one
      failure after which the connection is not recovered. */
  const StopAcknowledgement := "A stop message was received. You will now be disconnected"

  /** The branch of `_handleEvent` a record takes. `Faulty` records are those on
      which the handler throws a `TypeError` before doing anything: a `success`
      or `warning` status whose message is not a string (it has no `match`
      method), or, past the status checks, a `data` field that is `null`
      (reading `deleted` of it). A failure can also throw, later: see `Throws`. */
  datatype Class =
    | FailureStatus(message: Option<Value>)
    | SuccessStatus(text: string)
    | WarningStatus(text: string)
    | DeletedRecord
    | TickRecord
    | InteractionRecord
    | UnknownRecord
    | Faulty

  /** `v.status === s`. */
  predicate HasStatus(v: Value, s: string) {
    Field(v, "status") == Some(Str(s))
  }

  /** `v.data[key]`, when `v.data` is an object carrying `key`. */
  function DataField(v: Value, key: string): Option<Value> {
    match Field(v, "data")
    case Some(d) => Field(d, key)
    case None => None
  }

  /** None of the three statuses the handler recognises. */
  predicate NoStatus(v: Value) {
    !HasStatus(v, "failure") && !HasStatus(v, "success") && !HasStatus(v, "warning")
  }

  function Classify(v: Value): (c: Class)
    ensures c.Faulty? <==>
      || ((HasStatus(v, "success") || HasStatus(v, "warning"))
          && !(Field(v, "message").Some? && Field(v, "message").value.Str?))
      || (NoStatus(v) && Field(v, "data") == Some(Null))
    ensures c.DeletedRecord? ==> NoStatus(v) && DataField(v, "deleted") == Some(Bool(true))
    ensures c.TickRecord? ==>
      && NoStatus(v) && Field(v, "data") != Some(Null) && DataField(v, "deleted") != Some(Bool(true))
      && Field(v, "tick").Some?
    ensures c.InteractionRecord? ==>
      && NoStatus(v) && Field(v, "data") != Some(Null) && DataField(v, "deleted") != Some(Bool(true))
      && Field(v, "tick").None? && DataField(v, "interaction").Some?
    ensures c.UnknownRecord? ==>
      && NoStatus(v) && Field(v, "data") != Some(Null) && Field(v, "tick").None?
      && DataField(v, "deleted") != Some(Bool(true)) && DataField(v, "interaction").None?
    ensures c.SuccessStatus? ==> HasStatus(v, "success") && Field(v, "message") == Some(Str(c.text))
    ensures c.WarningStatus? ==> HasStatus(v, "warning") && Field(v, "message") == Some(Str(c.text))
    ensures c.FailureStatus? <==> HasStatus(v, "failure")
  {
    if HasStatus(v, "failure") then FailureStatus(Field(v, "message"))
    else if HasStatus(v, "success") then
      match Field(v, "message") case Some(Str(m)) => SuccessStatus(m) case _ => Faulty
    else if HasStatus(v, "warning") then
      match Field(v, "message") case Some(Str(m)) => WarningStatus(m) case _ => Faulty
    else if Field(v, "data") == Some(Null) then Faulty
    else if DataField(v, "deleted") == Some(Bool(true)) then DeletedRecord
    else if Field(v, "tick").Some? then TickRecord
    else if DataField(v, "interaction").Some? then InteractionRecord
    else UnknownRecord
  }

  /** The failure message `m` cannot be made into the text of an `Error`:
      `new Error(m)` converts a defined message with `ToString`, which throws. */
  predicate ErrorThrows(m: Option<Value>) {
    m.Some? && ToStringThrows(m.value)
  }

  /** The handler throws on `v`: either a faulty record, or a failure whose
      message `new Error` cannot convert, which happens after the recovery has
      been requested. */
  predicate Throws(v: Value) {
    Classify(v).Faulty? || (Classify(v).FailureStatus? && ErrorThrows(Classify(v).message))
  }

  /** The handler either finishes, leaving a registry and effects, or throws
      after the effects already issued. A throw leaves the registry as it was. */
  datatype Routed = Handled(registry: Registry, effects: seq<Effect>) | Threw(effects: seq<Effect>)

  /** `_handleEvent(v)`. */
  function Route(r: Registry, v: Value): (out: Routed)
    ensures out.Threw? <==> Throws(v)
    ensures Quiet(out.effects)
    ensures Recover in out.effects <==>
      Classify(v).FailureStatus? && Classify(v).message != Some(Str(StopAcknowledgement))
    ensures Rearm in out.effects <==>
      Classify(v).DeletedRecord? || Classify(v).TickRecord? || Classify(v).InteractionRecord?
    ensures out.Handled? ==> |Emitted(out.effects)| == 1
    ensures out.Threw? ==> Emitted(out.effects) == []
    ensures Classify(v).Faulty? ==> out == Threw([])
    ensures Classify(v).FailureStatus? && ErrorThrows(Classify(v).message) ==> out == Threw([Recover])
    ensures Classify(v).FailureStatus? && !ErrorThrows(Classify(v).message) ==>
      out.effects ==
        (if Classify(v).message == Some(Str(StopAcknowledgement)) then [] else [Recover])
        + [Emit(Error(Classify(v).message))]
    ensures Classify(v).SuccessStatus? ==> out.effects == [Emit(Success(Classify(v).text, v))]
    ensures Classify(v).WarningStatus? ==> out.effects == [Emit(Warning(Classify(v).text, v))]
    ensures Classify(v).DeletedRecord? ==> out.effects == [Rearm, Emit(Delete(v))]
    ensures Classify(v).TickRecord? ==> out.effects == [Rearm, Emit(Tick(v))]
    ensures Classify(v).InteractionRecord? ==> out.effects == [Rearm, Emit(Interaction(v))]
    ensures Classify(v).UnknownRecord? ==> out.effects == [Emit(UnknownEvent(v))]
    ensures out.Handled? && Classify(v).SuccessStatus? ==>
      out.registry == (match SubscribedHash(Classify(v).text) case Some(h) => Acknowledge(r, h) case None => r)
    ensures out.Handled? && Classify(v).WarningStatus? ==>
      out.registry == (match MissingHash(Classify(v).text)
                       case Some(h) => Refuse(r, h, Classify(v).text) case None => r)
    ensures out.Handled? && !Classify(v).SuccessStatus? && !Classify(v).WarningStatus? ==> out.registry == r
  {
    match Classify(v)
    case FailureStatus(m) =>
      var recover := if m == Some(Str(StopAcknowledgement)) then [] else [Recover];
      if ErrorThrows(m) then Threw(recover) else Handled(r, recover + [Emit(Error(m))])
    case SuccessStatus(m) =>
      var r' := match SubscribedHash(m) case Some(h) => Acknowledge(r, h) case None => r;
      Handled(r', [Emit(Success(m, v))])
    case WarningStatus(m) =>
      var r' := match MissingHash(m) case Some(h) => Refuse(r, h, m) case None => r;
      Handled(r', [Emit(Warning(m, v))])
    case DeletedRecord => Handled(r, [Rearm, Emit(Delete(v))])
    case TickRecord => Handled(r, [Rearm, Emit(Tick(v))])
    case InteractionRecord => Handled(r, [Rearm, Emit(Interaction(v))])
    case UnknownRecord => Handled(r, [Emit(UnknownEvent(v))])
    case Faulty => Threw([])
  }

  /** A failure whose message is an object with its own `toString` key, or an
      array holding one, requests recovery and then throws. */
  lemma UnprintableFailureThrows(m: Value)
    requires ToStringThrows(m)
    ensures
      var v := Object(map["status" := Str("failure"), "message" := m]);
      Route(Initial, v) == Threw([Recover])
  {
    var v := Object(map["status" := Str("failure"), "message" := m]);
    assert Field(v, "status") == Some(Str("failure"));
    assert Field(v, "message") == Some(m);
  }

  /** Routing a record keeps the registry well formed. */
  lemma RouteKeepsValid(r: Registry, v: Value)
    requires Valid(r) && Route(r, v).Handled?
    ensures Valid(Route(r, v).registry)
  {
    match Classify(v)
    case SuccessStatus(m) =>
      if SubscribedHash(m).Some? { AcknowledgeKeepsValid(r, SubscribedHash(m).value); }
    case WarningStatus(m) =>
      if MissingHash(m).Some? { RefuseKeepsValid(r, MissingHash(m).value, m); }
    case _ =>
  }

  /** The service's confirmation for a hash waiting on its subscription marks
      that hash subscribed and resolves its subscriber's future with it. */
  lemma ConfirmationResolvesSubscriber(r: Registry, h: string)
    requires Valid(r) && h in r.entries && r.entries[h].state == Pending
    ensures
      var m := "Successfully subscribed to hash " + h;
      var v := Object(map["status" := Str("success"), "message" := Str(m)]);
      var out := Route(r, v);
      && out.Handled?
      && out.registry.entries[h].state == Subscribed
      && out.registry.settled[r.entries[h].promise] == Fulfilled(out.registry.entries[h])
      && out.effects == [Emit(Success(m, v))]
  {
    var m := "Successfully subscribed to hash " + h;
    var v := Object(map["status" := Str("success"), "message" := Str(m)]);
    ConfirmationNamesHash(h);
    assert Route(r, v) == Handled(Acknowledge(r, h), [Emit(Success(m, v))]);
  }

  /** The confirmation for a valid hash is a success naming that hash. */
  lemma ConfirmationNamesHash(h: string)
    requires ValidHash(h)
    ensures
      var m := "Successfully subscribed to hash " + h;
      var v := Object(map["status" := Str("success"), "message" := Str(m)]);
      Classify(v) == SuccessStatus(m) && SubscribedHash(m) == Some(h)
  {
    var m := "Successfully subscribed to hash " + h;
    var v := Object(map["status" := Str("success"), "message" := Str(m)]);
    ValidHashIsPlain(h);
    SubscribedNamesHash(h);
    assert Field(v, "status") == Some(Str("success"));
  }

  /** The service's refusal for a hash waiting on its subscription drops that
      hash and rejects its subscriber's future with the message. */
  lemma RefusalRejectsSubscriber(r: Registry, h: string)
    requires Valid(r) && h in r.entries && r.entries[h].state == Pending
    ensures
      var m := "The hash " + h + " doesn't exist";
      var v := Object(map["status" := Str("warning"), "message" := Str(m)]);
      var out := Route(r, v);
      && out.Handled?
      && h !in out.registry.entries
      && out.registry.settled[r.entries[h].promise] == Broken(m)
      && out.effects == [Emit(Warning(m, v))]
  {
    var m := "The hash " + h + " doesn't exist";
    var v := Object(map["status" := Str("warning"), "message" := Str(m)]);
    RefusalNamesHash(h);
    assert Route(r, v) == Handled(Refuse(r, h, m), [Emit(Warning(m, v))]);
  }

  /** The refusal for a valid hash is a warning naming that hash. */
  lemma RefusalNamesHash(h: string)
    requires ValidHash(h)
    ensures
      var m := "The hash " + h + " doesn't exist";
      var v := Object(map["status" := Str("warning"), "message" := Str(m)]);
      Classify(v) == WarningStatus(m) && MissingHash(m) == Some(h)
  {
    var m := "The hash " + h + " doesn't exist";
    var v := Object(map["status" := Str("warning"), "message" := Str(m)]);
    ValidHashIsPlain(h);
    MissingNamesHash(h);
    assert Field(v, "status") == Some(Str("warning"));
  }
}

=== FILE: strings.dfy ===
/** Character classes and the split/join pair the stream consumer relies on:
    `String.prototype.split` on one delimiter character and `Array.prototype.join`. */
module Strings {

  /** ECMAScript WhiteSpace and LineTerminator code points: exactly the
      characters `\s` matches in a regular expression, so `\S` is the rest. */
  predicate IsSpace(c: char) {
    c in SpaceChars || '\U{2000}' <= c <= '\U{200A}'
  }

  /** The white-space code points outside the range U+2000 to U+200A. */
  const SpaceChars: set<char> := {
    '\t', '\n', '\U{B}', '\U{C}', '\r', ' ', '\U{A0}', '\U{1680}',
    '\U{2028}', '\U{2029}', '\U{202F}', '\U{205F}', '\U{3000}', '\U{FEFF}'
  }

  /** ASCII lower-casing. A case-insensitive regular expression whose pattern is
      plain ASCII matches a character against a pattern letter exactly when the
      two agree after this folding: no non-ASCII character canonicalises to an
      ASCII one. */
  function Lower(c: char): char {
    if 'A' <= c <= 'Z' then (c as int + 32) as char else c
  }

  /** Equality of two strings up to ASCII case. */
  predicate CiEqual(a: string, b: string) {
    |a| == |b| && forall i :: 0 <= i < |a| ==> Lower(a[i]) == Lower(b[i])
  }

  /** `msg`, read case-insensitively from position `p`, spells `pat`. */
  predicate CiAt(msg: string, p: int, pat: string) {
    0 <= p && p + |pat| <= |msg| && CiEqual(msg[p..p + |pat|], pat)
  }

  /** `s.split(d)`: the maximal delimiter-free pieces of `s`, in order. There is
      always at least one piece; the empty string splits into one empty piece. */
  function Split(s: string, d: char): (parts: seq<string>)
    ensures |parts| >= 1
    ensures forall i :: 0 <= i < |parts| ==> d !in parts[i]
    decreases |s|
  {
    if |s| == 0 then [""]
    else
      var rest := Split(s[1..], d);
      if s[0] == d then [""] + rest
      else [[s[0]] + rest[0]] + rest[1..]
  }

  /** `parts.join(d)`: the pieces with one delimiter between neighbours. */
  function Join(parts: seq<string>, d: char): (s: string)
    ensures forall i, c :: 0 <= i < |parts| && c in parts[i] ==> c in s
    ensures forall c :: c in s ==> c == d || exists i :: 0 <= i < |parts| && c in parts[i]
    decreases |parts|
  {
    if |parts| == 0 then ""
    else if |parts| == 1 then parts[0]
    else parts[0] + [d] + Join(parts[1..], d)
  }

  /** Joining the pieces of a split gives back the original string. */
  lemma {:induction false} JoinSplit(s: string, d: char)
    ensures Join(Split(s, d), d) == s
    decreases |s|
  {
    if |s| > 0 {
      var rest := Split(s[1..], d);
      JoinSplit(s[1..], d);
      if s[0] == d {
        assert Split(s, d) == [""] + rest;
        assert Join([""] + rest, d) == "" + [d] + Join(rest, d);
        assert s == [s[0]] + s[1..];
      } else {
        var first := [s[0]] + rest[0];
        assert Split(s, d) == [first] + rest[1..];
        if |rest| == 1 {
          assert [first] + rest[1..] == [first];
          assert Join(rest, d) == rest[0];
        } else {
          assert ([first] + rest[1..])[1..] == rest[1..];
          assert Join([first] + rest[1..], d) == first + [d] + Join(rest[1..], d);
          assert Join(rest, d) == rest[0] + [d] + Join(rest[1..], d);
        }
        assert s == [s[0]] + s[1..];
      }
    }
  }

  /** A string without the delimiter is a single piece. */
  lemma {:induction false} SplitWhole(s: string, d: char)
    requires d !in s
    ensures Split(s, d) == [s]
    decreases |s|
  {
    if |s| > 0 {
      assert d !in s[1..] by {
        forall k | 0 <= k < |s[1..]| ensures s[1..][k] != d {
          assert s[1..][k] == s[k + 1];
        }
      }
      SplitWhole(s[1..], d);
      assert s == [s[0]] + s[1..];
    }
  }

  /** A delimiter-free prefix followed by the delimiter splits off as one piece. */
  lemma {:induction false} SplitFirstPiece(p: string, d: char, t: string)
    requires d !in p
    ensures Split(p + [d] + t, d) == [p] + Split(t, d)
    decreases |p|
  {
    if |p| == 0 {
      assert p + [d] + t == [d] + t;
      assert ([d] + t)[1..] == t;
    } else {
      var s := p + [d] + t;
      assert d !in p[1..] by {
        forall k | 0 <= k < |p[1..]| ensures p[1..][k] != d {
          assert p[1..][k] == p[k + 1];
        }
      }
      SplitFirstPiece(p[1..], d, t);
      assert s[0] == p[0];
      assert s[1..] == p[1..] + [d] + t;
      var rest := Split(s[1..], d);
      assert rest == [p[1..]] + Split(t, d);
      assert [p[0]] + rest[0] == p;
      assert rest[1..] == Split(t, d);
    }
  }

  /** Splitting a join of delimiter-free pieces gives back the pieces. */
  lemma {:induction false} SplitJoin(parts: seq<string>, d: char)
    requires |parts| >= 1
    requires forall i :: 0 <= i < |parts| ==> d !in parts[i]
    ensures Split(Join(parts, d), d) == parts
    decreases |parts|
  {
    if |parts| == 1 {
      SplitWhole(parts[0], d);
    } else {
      assert d !in parts[0];
      SplitJoin(parts[1..], d);
      SplitFirstPiece(parts[0], d, Join(parts[1..], d));
      assert [parts[0]] + parts[1..] == parts;
    }
  }

  /** One step of `Split`: how a leading character extends the pieces of the rest. */
  lemma SplitCons(x: char, u: string, d: char)
    ensures var r := Split(u, d);
      Split([x] + u, d) == if x == d then [""] + r else [[x] + r[0]] + r[1..]
  {
    var s := [x] + u;
    assert s[0] == x && s[1..] == u;
  }

  /** Appending text only extends the last piece of a split and may add new
      pieces after it; the earlier pieces are already final. */
  lemma {:induction false} SplitAppend(s: string, t: string, d: char)
    ensures AppendSplits(s, t, d)
    decreases |s|
  {
    if |s| == 0 {
      assert s + t == t;
      assert "" + t == t;
    } else {
      assert s + t == [s[0]] + s[1..] + t;
      SplitAppend(s[1..], t, d);
      SplitAppendStep(s[0], s[1..], t, d);
      assert s == [s[0]] + s[1..];
    }
  }

  /** The property `SplitAppend` states, for one string. */
  predicate AppendSplits(s: string, t: string, d: char) {
    var ps := Split(s, d);
    Split(s + t, d) == ps[..|ps| - 1] + Split(ps[|ps| - 1] + t, d)
  }

  /** The inductive step of `SplitAppend`: the property for a string carries
      over to the string with one more character in front. */
  lemma SplitAppendStep(x: char, s': string, t: string, d: char)
    requires AppendSplits(s', t, d)
    ensures AppendSplits([x] + s', t, d)
  {
    assert [x] + s' + t == [x] + (s' + t);
    if x == d {
      DelimAppendStep(x, s', t, d);
    } else if |Split(s', d)| == 1 {
      LoneAppendStep(x, s', t, d);
    } else {
      CharAppendStep(x, s', t, d);
    }
  }

  /** `SplitAppendStep` when the leading character is the delimiter. */
  lemma DelimAppendStep(x: char, s': string, t: string, d: char)
    requires x == d && AppendSplits(s', t, d)
    ensures Split([x] + (s' + t), d) == var ps := Split([x] + s', d); ps[..|ps| - 1] + Split(ps[|ps| - 1] + t, d)
  {
    SplitCons(x, s', d);
    SplitCons(x, s' + t, d);
    var ps' := Split(s', d);
    DelimStep(ps', Split(s' + t, d), Split(ps'[|ps'| - 1] + t, d));
  }

  /** `SplitAppendStep` when the leading character joins a rest that is one piece. */
  lemma LoneAppendStep(x: char, s': string, t: string, d: char)
    requires x != d && |Split(s', d)| == 1 && AppendSplits(s', t, d)
    ensures Split([x] + (s' + t), d) == var ps := Split([x] + s', d); ps[..|ps| - 1] + Split(ps[|ps| - 1] + t, d)
  {
    SplitCons(x, s', d);
    var ps' := Split(s', d);
    assert Split(s' + t, d) == Split(ps'[0] + t, d);
    SplitCons(x, s' + t, d);
    SplitAppendLone(x, ps'[0], t, d);
  }

  /** `SplitAppendStep` when the leading character joins the first of several pieces. */
  lemma CharAppendStep(x: char, s': string, t: string, d: char)
    requires x != d && |Split(s', d)| >= 2 && AppendSplits(s', t, d)
    ensures Split([x] + (s' + t), d) == var ps := Split([x] + s', d); ps[..|ps| - 1] + Split(ps[|ps| - 1] + t, d)
  {
    SplitCons(x, s', d);
    SplitCons(x, s' + t, d);
    var ps' := Split(s', d);
    CharStep(x, ps', Split(s' + t, d), Split(ps'[|ps'| - 1] + t, d));
  }

  /** Sequence algebra for `SplitAppend` when the first character is the delimiter. */
  lemma DelimStep(ps': seq<string>, r: seq<string>, q: seq<string>)
    requires |ps'| >= 1 && r == ps'[..|ps'| - 1] + q
    ensures var ps := [""] + ps';
      [""] + r == ps[..|ps| - 1] + q && ps[|ps| - 1] == ps'[|ps'| - 1]
  {
    var ps := [""] + ps';
    assert ps[..|ps| - 1] == [""] + ps'[..|ps'| - 1];
  }

  /** Sequence algebra for `SplitAppend` when the first character extends the first piece. */
  lemma CharStep(x: char, ps': seq<string>, r: seq<string>, q: seq<string>)
    requires |ps'| >= 2 && r == ps'[..|ps'| - 1] + q
    ensures var ps := [[x] + ps'[0]] + ps'[1..];
      [[x] + r[0]] + r[1..] == ps[..|ps| - 1] + q && ps[|ps| - 1] == ps'[|ps'| - 1]
  {
    var ps := [[x] + ps'[0]] + ps'[1..];
    assert r[0] == ps'[0];
    assert r[1..] == ps'[1..|ps'| - 1] + q;
    assert ps[..|ps| - 1] == [[x] + ps'[0]] + ps'[1..|ps'| - 1];
  }

  /** The case of `SplitAppend` where the rest of the string is one piece. */
  lemma SplitAppendLone(x: char, last: string, t: string, d: char)
    requires x != d
    ensures var r := Split(last + t, d);
      [[x] + r[0]] + r[1..] == Split(([x] + last) + t, d)
  {
    assert ([x] + last) + t == [x] + (last + t);
    SplitCons(x, last + t, d);
  }
}

=== FILE: subscriptions.dfy ===
/** The subscription registry: the map from stream hash to subscription state
    that `subscribe`, `unsubscribe`, `setSubscriptions` and `shutdown` change,
    together with the state of the deferreds handed out for its entries. */
module Subscriptions {
  import opened Common
  import opened Strings
  import opened Effects
  import opened Hashes

  /** The `state` field of a subscription object. */
  datatype State = Pending | Subscribed | Unsubscribed

  /** A subscription object `{state, hash, deferred}`; `promise` identifies its deferred. */
  datatype Entry = Entry(hash: string, state: State, promise: nat)

  /** How a deferred was settled: a deferred settles at most once. */
  datatype Settlement = Fulfilled(value: Entry) | Broken(reason: string)

  /** The registry. `keys` is `Object.keys(streams)`, the insertion order of
      the hashes present; `entries` maps each hash to its subscription object;
      `nextPromise` identifies the next deferred to be created; `settled`
      records every deferred that has been resolved or rejected. */
  datatype Registry = Registry(
    keys: seq<string>,
    entries: map<string, Entry>,
    nextPromise: nat,
    settled: map<nat, Settlement>)

  /** What a caller gets back: the deferred of an entry, or a promise that is
      already resolved or rejected. */
  datatype Future = Deferred(promise: nat) | Resolved(value: Entry) | Rejected(reason: string)

  /** The outcome of the consumer's start, which the transport decides. */
  datatype StartOutcome = Started | StartFailed(reason: string)

  datatype Reply = Reply(registry: Registry, future: Future, effects: seq<Effect>)
  datatype Batch = Batch(registry: Registry, futures: seq<Future>, effects: seq<Effect>)

  /** The registry of a freshly created consumer. */
  const Initial := Registry([], map[], 0, map[])

  /** The key order lists each present hash exactly once. */
  ghost predicate KeysListed(r: Registry) {
    Distinct(r.keys) && forall h :: h in r.keys <==> h in r.entries
  }

  /** The registry invariant: the key order lists each present hash once;
      every entry is stored under its own hash, which is a valid hash; deferreds
      are numbered apart; an entry is pending exactly while its deferred is
      unsettled, and an unsubscribed entry is never present. */
  ghost predicate Valid(r: Registry) {
    && KeysListed(r)
    && (forall h :: h in r.entries ==>
          && r.entries[h].hash == h
          && ValidHash(h)
          && r.entries[h].promise < r.nextPromise
          && r.entries[h].state != Unsubscribed
          && (r.entries[h].state == Pending <==> r.entries[h].promise !in r.settled))
    && (forall h, g :: h in r.entries && g in r.entries && h != g ==>
          r.entries[h].promise != r.entries[g].promise)
    && (forall p :: p in r.settled ==> p < r.nextPromise)
  }

  lemma InitialIsValid()
    ensures Valid(Initial)
    ensures Initial.keys == [] && Initial.entries == map[]
  {
  }

  // ---------------------------------------------------------------------------
  // _arrayDifference

  /** `a.filter(i => b.indexOf(i) < 0)`: the elements of `a` that are not in
      `b`, in their order in `a`, duplicates kept. */
  function Except(a: seq<string>, b: seq<string>): (r: seq<string>)
    ensures |r| <= |a|
    ensures forall x :: x in r <==> x in a && x !in b
    decreases |a|
  {
    if |a| == 0 then []
    else (if a[0] in b then [] else [a[0]]) + Except(a[1..], b)
  }

  /** `_arrayDifference(a, b)`, where `None` is an `undefined` (or `null`) argument. */
  function ArrayDifference(a: Option<seq<string>>, b: Option<seq<string>>): (r: seq<string>)
    ensures a.None? ==> r == []
    ensures forall x :: x in r <==> a.Some? && x in a.value && (b.None? || x !in b.value)
    ensures a.Some? ==> |r| <= |a.value|
    ensures a.Some? && b.None? ==> r == a.value
  {
    match a
    case None => []
    case Some(xs) =>
      match b
      case None => xs
      case Some(ys) => Except(xs, ys)
  }

  /** Filtering distributes over concatenation: together with `ExceptOne` this
      pins the difference down as the order-preserving filter. */
  lemma {:induction false} ExceptAppend(a1: seq<string>, a2: seq<string>, b: seq<string>)
    ensures Except(a1 + a2, b) == Except(a1, b) + Except(a2, b)
    decreases |a1|
  {
    if |a1| == 0 {
      assert a1 + a2 == a2;
    } else {
      var head := if a1[0] in b then [] else [a1[0]];
      assert (a1 + a2)[0] == a1[0];
      assert (a1 + a2)[1..] == a1[1..] + a2;
      ExceptAppend(a1[1..], a2, b);
      assert Except(a1 + a2, b) == head + (Except(a1[1..], b) + Except(a2, b));
      assert head + (Except(a1[1..], b) + Except(a2, b)) == (head + Except(a1[1..], b)) + Except(a2, b);
    }
  }

  /** A single element is kept exactly when it does not occur in `b`. */
  lemma ExceptOne(x: string, b: seq<string>)
    ensures Except([x], b) == if x in b then [] else [x]
  {
    assert [x][1..] == [];
  }

  /** Filtering never introduces a repetition. */
  lemma {:induction false} ExceptDistinct(a: seq<string>, b: seq<string>)
    requires Distinct(a)
    ensures Distinct(Except(a, b))
    decreases |a|
  {
    if |a| > 0 {
      assert Distinct(a[1..]) by {
        forall i, j | 0 <= i < j < |a[1..]| ensures a[1..][i] != a[1..][j] {
          assert a[1..][i] == a[i + 1] && a[1..][j] == a[j + 1];
        }
      }
      ExceptDistinct(a[1..], b);
      var rest := Except(a[1..], b);
      assert a[0] !in a[1..] by {
        forall k | 0 <= k < |a[1..]| ensures a[1..][k] != a[0] {
          assert a[1..][k] == a[k + 1];
        }
      }
      assert a[0] !in rest;
      var head := if a[0] in b then [] else [a[0]];
      assert Distinct(head + rest) by {
        forall i, j | 0 <= i < j < |head + rest| ensures (head + rest)[i] != (head + rest)[j] {
          if i < |head| {
            assert (head + rest)[i] == a[0];
            assert (head + rest)[j] == rest[j - |head|];
          } else {
            assert (head + rest)[i] == rest[i - |head|];
            assert (head + rest)[j] == rest[j - |head|];
          }
        }
      }
    }
  }

  /** Filtering twice is filtering once by both lists. */
  lemma {:induction false} ExceptExcept(a: seq<string>, b: seq<string>, c: seq<string>)
    ensures Except(Except(a, b), c) == Except(a, b + c)
    decreases |a|
  {
    if |a| > 0 {
      ExceptExcept(a[1..], b, c);
      var head := if a[0] in b then [] else [a[0]];
      ExceptAppend(head, Except(a[1..], b), c);
      if a[0] !in b {
        ExceptOne(a[0], c);
      }
    }
  }

  /** Filtering by nothing keeps everything. */
  lemma {:induction false} ExceptNothing(a: seq<string>, b: seq<string>)
    requires forall x :: x in a ==> x !in b
    ensures Except(a, b) == a
    decreases |a|
  {
    if |a| > 0 {
      assert a[0] in a;
      assert forall x :: x in a[1..] ==> x in a;
      ExceptNothing(a[1..], b);
      assert a == [a[0]] + a[1..];
    }
  }

  // ---------------------------------------------------------------------------
  // Deferreds

  /** `deferred.resolve(...)` / `deferred.reject(...)`: the first settlement of
      a deferred sticks, later ones are ignored. */
  function Settle(settled: map<nat, Settlement>, p: nat, s: Settlement): (r: map<nat, Settlement>)
    ensures p in r && (p !in settled ==> r[p] == s)
    ensures forall q :: q in settled ==> q in r && r[q] == settled[q]
    ensures forall q :: q in r ==> q == p || q in settled
  {
    if p in settled then settled else settled[p := s]
  }

  // ---------------------------------------------------------------------------
  // Registry operations

  /** `delete streams[h]`: the key leaves the key order, which otherwise keeps its order. */
  function Remove(r: Registry, h: string): (r': Registry)
    ensures r'.keys == Except(r.keys, [h])
    ensures forall k :: k in r'.keys <==> k in r.keys && k != h
    ensures forall k :: k in r'.entries <==> k in r.entries && k != h
    ensures forall k :: k in r'.entries ==> r'.entries[k] == r.entries[k]
    ensures r'.nextPromise == r.nextPromise && r'.settled == r.settled
  {
    Registry(Except(r.keys, [h]), r.entries - {h}, r.nextPromise, r.settled)
  }

  /** `_subscribeToStream(h)`. */
  function SubscribeToStream(r: Registry, h: string, started: bool): (rep: Reply)
    // an entry already waiting or subscribed: its own deferred, nothing written, nothing changed
    ensures h in r.entries ==>
      rep.registry == r && rep.future == Deferred(r.entries[h].promise) && rep.effects == []
    // otherwise: one new pending entry with a new deferred, appended to the key order
    ensures h !in r.entries ==>
      && rep.registry.keys == r.keys + [h]
      && rep.registry.entries.Keys == r.entries.Keys + {h}
      && rep.registry.entries[h] == Entry(h, Pending, r.nextPromise)
      && rep.future == Deferred(r.nextPromise)
      && rep.registry.nextPromise == r.nextPromise + 1
      && (rep.effects == if started then [Write(SubscribeMessage(h))] else [])
    ensures forall k :: k in r.entries ==> k in rep.registry.entries && rep.registry.entries[k] == r.entries[k]
    ensures rep.registry.settled == r.settled
  {
    if h in r.entries then Reply(r, Deferred(r.entries[h].promise), [])
    else
      var entry := Entry(h, Pending, r.nextPromise);
      Reply(
        Registry(r.keys + [h], r.entries[h := entry], r.nextPromise + 1, r.settled),
        Deferred(r.nextPromise),
        if started then [Write(SubscribeMessage(h))] else [])
  }

  /** `subscribe(h)`: start the consumer, then validate the hash, then subscribe. */
  function Subscribe(r: Registry, h: string, start: StartOutcome, started: bool): (rep: Reply)
    ensures |rep.effects| >= 1 && rep.effects[0] == Start
    ensures start.StartFailed? ==>
      rep.registry == r && rep.future == Rejected(start.reason) && rep.effects == [Start]
    ensures start.Started? && !ValidHash(h) ==>
      rep.registry == r && rep.future == Rejected("invalid hash: " + h) && rep.effects == [Start]
    ensures start.Started? && ValidHash(h) ==>
      h in rep.registry.entries && rep.future == Deferred(rep.registry.entries[h].promise)
    // a valid hash already listed: nothing changes and nothing is written
    ensures start.Started? && ValidHash(h) && h in r.entries ==>
      rep.registry == r && rep.effects == [Start]
    // a valid new hash: a pending entry at the end of the key order, written exactly when started
    ensures start.Started? && ValidHash(h) && h !in r.entries ==>
      && rep.registry.keys == r.keys + [h]
      && rep.registry.entries[h] == Entry(h, Pending, r.nextPromise)
      && rep.registry.nextPromise == r.nextPromise + 1
      && rep.effects == [Start] + (if started then [Write(SubscribeMessage(h))] else [])
    ensures forall k :: k in r.entries ==> k in rep.registry.entries && rep.registry.entries[k] == r.entries[k]
    ensures forall k :: k in rep.registry.entries ==> k in r.entries || k == h
    ensures rep.registry.settled == r.settled
  {
    match start
    case StartFailed(reason) => Reply(r, Rejected(reason), [Start])
    case Started =>
      if !ValidHash(h) then Reply(r, Rejected("invalid hash: " + h), [Start])
      else
        var rep := SubscribeToStream(r, h, started);
        rep.(effects := [Start] + rep.effects)
  }

  /** `unsubscribe(h)`: fire and forget; the entry's own deferred is left as it is. */
  function Unsubscribe(r: Registry, h: string, started: bool): (rep: Reply)
    ensures h !in r.entries ==>
      rep.registry == r && rep.future == Rejected("unknown hash: " + h) && rep.effects == []
    ensures h in r.entries ==>
      && rep.registry == Remove(r, h)
      && rep.future == Resolved(r.entries[h].(state := Unsubscribed))
      && (rep.effects == if started then [Write(UnsubscribeMessage(h))] else [])
    ensures forall k :: k in rep.registry.entries <==> k in r.entries && k != h
    ensures rep.registry.settled == r.settled
  {
    if h !in r.entries then Reply(r, Rejected("unknown hash: " + h), [])
    else
      var entry := r.entries[h].(state := Unsubscribed);
      Reply(Remove(r, h), Resolved(entry), if started then [Write(UnsubscribeMessage(h))] else [])
  }

  /** `streamsToSubscribe.map(subscribe)`, in order. */
  function SubscribeEach(r: Registry, hs: seq<string>, start: StartOutcome, started: bool): (b: Batch)
    ensures |b.futures| == |hs|
    ensures forall k :: k in b.registry.entries <==>
      k in r.entries || (k in hs && start.Started? && ValidHash(k))
    ensures forall k :: k in r.entries ==> b.registry.entries[k] == r.entries[k]
    ensures b.registry.settled == r.settled
    ensures forall i :: 0 <= i < |hs| ==>
      && (start.StartFailed? ==> b.futures[i] == Rejected(start.reason))
      && (start.Started? && !ValidHash(hs[i]) ==> b.futures[i] == Rejected("invalid hash: " + hs[i]))
      && (start.Started? && ValidHash(hs[i]) ==>
            hs[i] in b.registry.entries && b.futures[i] == Deferred(b.registry.entries[hs[i]].promise))
    decreases |hs|
  {
    if |hs| == 0 then Batch(r, [], [])
    else
      var first := Subscribe(r, hs[0], start, started);
      var rest := SubscribeEach(first.registry, hs[1..], start, started);
      HeadAndTail(hs);
      Batch(rest.registry, [first.future] + rest.futures, first.effects + rest.effects)
  }

  /** `streamsToUnsubscribe.map(unsubscribe)`, in order. */
  function UnsubscribeEach(r: Registry, hs: seq<string>, started: bool): (b: Batch)
    ensures |b.futures| == |hs|
    ensures forall k :: k in b.registry.entries <==> k in r.entries && k !in hs
    ensures forall k :: k in b.registry.entries ==> b.registry.entries[k] == r.entries[k]
    ensures b.registry.nextPromise == r.nextPromise && b.registry.settled == r.settled
    decreases |hs|
  {
    if |hs| == 0 then Batch(r, [], [])
    else
      var first := Unsubscribe(r, hs[0], started);
      var rest := UnsubscribeEach(first.registry, hs[1..], started);
      HeadAndTail(hs);
      Batch(rest.registry, [first.future] + rest.futures, first.effects + rest.effects)
  }

  /** A non-empty list is its head followed by its tail; a list without
      repetitions does not repeat its head in its tail, which has none either. */
  lemma HeadAndTail(hs: seq<string>)
    requires |hs| > 0
    ensures forall k :: k in hs <==> k == hs[0] || k in hs[1..]
    ensures Distinct(hs) ==> hs[0] !in hs[1..] && Distinct(hs[1..])
  {
    assert hs == [hs[0]] + hs[1..];
    if Distinct(hs) {
      forall k | 0 <= k < |hs[1..]| ensures hs[1..][k] != hs[0] {
        assert hs[1..][k] == hs[k + 1];
      }
      forall i, j | 0 <= i < j < |hs[1..]| ensures hs[1..][i] != hs[1..][j] {
        assert hs[1..][i] == hs[i + 1] && hs[1..][j] == hs[j + 1];
      }
    }
  }

  /** Unsubscribing a list of distinct hashes resolves each present hash with
      its unsubscribed entry and rejects each absent one. */
  lemma {:induction false} UnsubscribeEachFutures(r: Registry, hs: seq<string>, started: bool)
    requires Distinct(hs)
    ensures var b := UnsubscribeEach(r, hs, started);
      forall i :: 0 <= i < |hs| ==>
        b.futures[i] == if hs[i] in r.entries then Resolved(r.entries[hs[i]].(state := Unsubscribed))
                        else Rejected("unknown hash: " + hs[i])
    decreases |hs|
  {
    if |hs| > 0 {
      var first := Unsubscribe(r, hs[0], started);
      var b := UnsubscribeEach(r, hs, started);
      var rest := UnsubscribeEach(first.registry, hs[1..], started);
      HeadAndTail(hs);
      UnsubscribeEachFutures(first.registry, hs[1..], started);
      assert b.futures == [first.future] + rest.futures;
      forall i | 1 <= i < |hs|
        ensures b.futures[i] == if hs[i] in r.entries then Resolved(r.entries[hs[i]].(state := Unsubscribed))
                                else Rejected("unknown hash: " + hs[i])
      {
        assert hs[i] == hs[1..][i - 1];
        assert hs[i] != hs[0];
        assert b.futures[i] == rest.futures[i - 1];
      }
    }
  }

  /** The desired hashes not present: `_arrayDifference(streamHashes, Object.keys(streams))`. */
  function Additions(r: Registry, desired: Option<seq<string>>): (adds: seq<string>)
    ensures forall k :: k in adds <==> k in desired.GetOr([]) && k !in r.keys
  {
    ArrayDifference(Some(desired.GetOr([])), Some(r.keys))
  }

  /** The present hashes not desired: `_arrayDifference(Object.keys(streams), streamHashes)`. */
  function Removals(r: Registry, desired: Option<seq<string>>): (drops: seq<string>)
    ensures forall k :: k in drops <==> k in r.keys && k !in desired.GetOr([])
  {
    ArrayDifference(Some(r.keys), Some(desired.GetOr([])))
  }

  /** `setSubscriptions(streamHashes)`: reconcile the registry with the desired
      list (`undefined` meaning none). The futures are the subscribe futures,
      then the unsubscribe futures. `started` is `client.started()` while the
      call runs, which decides the unsubscribe writes and the final start;
      `startedLater` is its value when the subscriptions, which wait for the
      start, go ahead. */
  function SetSubscriptions(r: Registry, desired: Option<seq<string>>, start: StartOutcome, started: bool, startedLater: bool): (b: Batch)
    ensures |b.futures| == |Additions(r, desired)| + |Removals(r, desired)|
    ensures |b.effects| >= 1 && b.effects[0] == Rearm
    ensures !started ==> b.effects[|b.effects| - 1] == Start
  {
    var u := UnsubscribeEach(r, Removals(r, desired), started);
    var s := SubscribeEach(u.registry, Additions(r, desired), start, startedLater);
    Batch(s.registry, s.futures + u.futures, [Rearm] + u.effects + s.effects + (if started then [] else [Start]))
  }

  /** A `success` status naming a present hash: the entry becomes subscribed
      and its deferred is resolved with it, unless it was settled before. */
  function Acknowledge(r: Registry, h: string): (r': Registry)
    ensures h !in r.entries ==> r' == r
    ensures h in r.entries ==>
      && r'.keys == r.keys
      && r'.entries.Keys == r.entries.Keys
      && r'.entries[h] == r.entries[h].(state := Subscribed)
      && r.entries[h].promise in r'.settled
      && (r.entries[h].promise !in r.settled ==> r'.settled[r.entries[h].promise] == Fulfilled(r'.entries[h]))
    ensures forall k :: k in r.entries && k != h ==> r'.entries[k] == r.entries[k]
    ensures forall q :: q in r.settled ==> q in r'.settled && r'.settled[q] == r.settled[q]
    ensures forall q :: q in r'.settled ==> q in r.settled || (h in r.entries && q == r.entries[h].promise)
    ensures r'.nextPromise == r.nextPromise
  {
    if h !in r.entries then r
    else
      var e := r.entries[h].(state := Subscribed);
      Registry(r.keys, r.entries[h := e], r.nextPromise, Settle(r.settled, e.promise, Fulfilled(e)))
  }

  /** A `warning` status naming a present hash: its deferred is rejected with
      the message (unless it was settled before) and the entry is removed. */
  function Refuse(r: Registry, h: string, reason: string): (r': Registry)
    ensures h !in r.entries ==> r' == r
    ensures h in r.entries ==>
      && r'.keys == Except(r.keys, [h])
      && r.entries[h].promise in r'.settled
      && (r.entries[h].promise !in r.settled ==> r'.settled[r.entries[h].promise] == Broken(reason))
    ensures forall k :: k in r'.entries <==> k in r.entries && k != h
    ensures forall k :: k in r'.entries ==> r'.entries[k] == r.entries[k]
    ensures forall q :: q in r.settled ==> q in r'.settled && r'.settled[q] == r.settled[q]
    ensures forall q :: q in r'.settled ==> q in r.settled || (h in r.entries && q == r.entries[h].promise)
    ensures r'.nextPromise == r.nextPromise
  {
    if h !in r.entries then r
    else Remove(r, h).(settled := Settle(r.settled, r.entries[h].promise, Broken(reason)))
  }

  /** `shutdown()`: the registry is emptied in bulk, without unsubscribing or
      settling anything; the watchdog is cleared, the stop message written and
      the transport stopped. */
  function Shutdown(r: Registry): (out: (Registry, seq<Effect>))
    ensures out.0.entries == map[] && out.0.keys == []
    ensures out.0.settled == r.settled && out.0.nextPromise == r.nextPromise
    ensures out.1 == [CancelWatchdog, Write(StopMessage()), Stop]
  {
    (r.(keys := [], entries := map[]), [CancelWatchdog, Write(StopMessage()), Stop])
  }

  const BasePath := "/multi?statuses=true"
  const HashesParameter := "&hashes="

  /** The request path `_connect` builds from the hashes present, in key order. */
  function ConnectPath(r: Registry): (path: string)
    ensures |path| >= |BasePath| && path[..|BasePath|] == BasePath
  {
    BasePath + if |r.keys| > 0 then HashesParameter + Join(r.keys, ',') else ""
  }

  // ---------------------------------------------------------------------------
  // Properties

  /** Only an empty registry gives the bare path; otherwise the `hashes`
      parameter, split at its commas, lists exactly the registry's hashes in
      key order. */
  lemma ConnectPathListsHashes(r: Registry)
    requires Valid(r)
    ensures r.entries == map[] <==> ConnectPath(r) == BasePath
    ensures r.entries != map[] ==>
      var path := ConnectPath(r);
      var start := |BasePath| + |HashesParameter|;
      && |path| >= start
      && path[|BasePath|..start] == HashesParameter
      && Split(path[start..], ',') == r.keys
  {
    var path := ConnectPath(r);
    if |r.keys| == 0 {
      assert r.entries == map[] by {
        forall h | h in r.entries ensures false {
        }
      }
    } else {
      assert r.keys[0] in r.entries;
      var joined := Join(r.keys, ',');
      assert path == BasePath + HashesParameter + joined;
      var start := |BasePath| + |HashesParameter|;
      assert path[|BasePath|..start] == HashesParameter;
      assert path[start..] == joined;
      forall i | 0 <= i < |r.keys| ensures ',' !in r.keys[i] {
        assert r.keys[i] in r.entries;
        ValidHashIsPlain(r.keys[i]);
      }
      SplitJoin(r.keys, ',');
    }
  }

  /** A second `_subscribeToStream` for the same hash hands back the same
      deferred and does nothing else. */
  lemma SubscribeTwiceSameFuture(r: Registry, h: string, started: bool, startedLater: bool)
    ensures var first := SubscribeToStream(r, h, started);
      var second := SubscribeToStream(first.registry, h, startedLater);
      && second.future == first.future
      && second.registry == first.registry
      && second.effects == []
  {
  }

  /** The new entry's deferred differs from every deferred in the registry and
      is unsettled; the invariant is kept. */
  lemma SubscribeToStreamKeepsValid(r: Registry, h: string, started: bool)
    requires Valid(r) && ValidHash(h)
    ensures Valid(SubscribeToStream(r, h, started).registry)
    ensures h !in r.entries ==>
      var p := SubscribeToStream(r, h, started).future.promise;
      && p !in r.settled
      && forall k :: k in r.entries ==> r.entries[k].promise != p
  {
    var r' := SubscribeToStream(r, h, started).registry;
    if h !in r.entries {
      assert h !in r.keys;
      assert Distinct(r'.keys) by {
        forall i, j | 0 <= i < j < |r'.keys| ensures r'.keys[i] != r'.keys[j] {
          if j == |r.keys| {
            assert r.keys[i] in r.keys;
          }
        }
      }
    }
  }

  lemma RemoveKeepsValid(r: Registry, h: string)
    requires Valid(r)
    ensures Valid(Remove(r, h))
  {
    ExceptDistinct(r.keys, [h]);
  }

  lemma SubscribeKeepsValid(r: Registry, h: string, start: StartOutcome, started: bool)
    requires Valid(r)
    ensures Valid(Subscribe(r, h, start, started).registry)
  {
    if start.Started? && ValidHash(h) {
      SubscribeToStreamKeepsValid(r, h, started);
    }
  }

  lemma UnsubscribeKeepsValid(r: Registry, h: string, started: bool)
    requires Valid(r)
    ensures Valid(Unsubscribe(r, h, started).registry)
  {
    RemoveKeepsValid(r, h);
  }

  /** Resolving an entry keeps the invariant: it is now settled and subscribed. */
  lemma AcknowledgeKeepsValid(r: Registry, h: string)
    requires Valid(r)
    ensures Valid(Acknowledge(r, h))
  {
    if h in r.entries {
      var r' := Acknowledge(r, h);
      assert KeysListed(r');
      forall k | k in r'.entries
        ensures r'.entries[k].state == Pending <==> r'.entries[k].promise !in r'.settled
      {
        if k != h {
          assert r'.entries[k].promise != r.entries[h].promise;
        }
      }
    }
  }

  /** Rejecting and removing an entry keeps the invariant. */
  lemma RefuseKeepsValid(r: Registry, h: string, reason: string)
    requires Valid(r)
    ensures Valid(Refuse(r, h, reason))
  {
    if h in r.entries {
      RemoveKeepsValid(r, h);
    }
  }

  /** Shutdown keeps the invariant and leaves every pending deferred pending:
      nothing will ever settle it. */
  lemma ShutdownStrandsPending(r: Registry)
    requires Valid(r)
    ensures Valid(Shutdown(r).0)
    ensures forall h :: h in r.entries && r.entries[h].state == Pending ==>
      r.entries[h].promise !in Shutdown(r).0.settled
  {
  }

  lemma {:induction false} SubscribeEachKeepsValid(r: Registry, hs: seq<string>, start: StartOutcome, started: bool)
    requires Valid(r)
    ensures Valid(SubscribeEach(r, hs, start, started).registry)
    decreases |hs|
  {
    if |hs| > 0 {
      SubscribeKeepsValid(r, hs[0], start, started);
      SubscribeEachKeepsValid(Subscribe(r, hs[0], start, started).registry, hs[1..], start, started);
    }
  }

  lemma {:induction false} UnsubscribeEachKeepsValid(r: Registry, hs: seq<string>, started: bool)
    requires Valid(r)
    ensures Valid(UnsubscribeEach(r, hs, started).registry)
    ensures UnsubscribeEach(r, hs, started).registry.keys == Except(r.keys, hs)
    decreases |hs|
  {
    if |hs| > 0 {
      var first := Unsubscribe(r, hs[0], started);
      UnsubscribeKeepsValid(r, hs[0], started);
      UnsubscribeEachKeepsValid(first.registry, hs[1..], started);
      if hs[0] in r.entries {
        assert first.registry.keys == Except(r.keys, [hs[0]]);
      } else {
        assert hs[0] !in r.keys;
        ExceptNothing(r.keys, [hs[0]]);
      }
      ExceptExcept(r.keys, [hs[0]], hs[1..]);
      assert [hs[0]] + hs[1..] == hs;
    } else {
      ExceptNothing(r.keys, hs);
    }
  }

  /** After the unsubscribe half of `setSubscriptions`, exactly the present
      and desired hashes remain, untouched, and the invariant is kept. */
  lemma ReconcileRemovals(r: Registry, desired: Option<seq<string>>, started: bool)
    requires Valid(r)
    ensures var u := UnsubscribeEach(r, Removals(r, desired), started);
      && Valid(u.registry)
      && (forall k :: k in u.registry.entries <==> k in r.entries && k in desired.GetOr([]))
  {
    UnsubscribeEachKeepsValid(r, Removals(r, desired), started);
  }

  /** The unsubscribe half of `setSubscriptions` resolves one future per
      removal, in key order, with the unsubscribed entry. */
  lemma RemovalFutures(r: Registry, desired: Option<seq<string>>, started: bool)
    requires KeysListed(r)
    ensures var drops := Removals(r, desired);
      var u := UnsubscribeEach(r, drops, started);
      forall i :: 0 <= i < |drops| ==>
        drops[i] in r.entries && u.futures[i] == Resolved(r.entries[drops[i]].(state := Unsubscribed))
  {
    var drops := Removals(r, desired);
    ExceptDistinct(r.keys, desired.GetOr([]));
    UnsubscribeEachFutures(r, drops, started);
    forall i | 0 <= i < |drops| ensures drops[i] in r.entries {
      assert drops[i] in drops;
    }
  }

  /** `setSubscriptions` reconciles the registry: afterwards it holds the
      hashes that were both present and desired, untouched, plus the desired
      hashes that were absent and could be subscribed; the invariant is kept. */
  lemma ReconcileRegistry(r: Registry, desired: Option<seq<string>>, start: StartOutcome, started: bool, startedLater: bool)
    requires Valid(r)
    ensures var b := SetSubscriptions(r, desired, start, started, startedLater);
      && Valid(b.registry)
      && (forall k :: k in b.registry.entries <==>
            (k in r.entries && k in desired.GetOr([]))
            || (k !in r.entries && k in desired.GetOr([]) && start.Started? && ValidHash(k)))
      && (forall k :: k in r.entries && k in desired.GetOr([]) ==> b.registry.entries[k] == r.entries[k])
  {
    var u := UnsubscribeEach(r, Removals(r, desired), started);
    ReconcileRemovals(r, desired, started);
    SubscribeEachKeepsValid(u.registry, Additions(r, desired), start, startedLater);
  }

  /** The futures of `setSubscriptions`: first one per hash to add, in the
      desired list's order, each the new entry's deferred or a rejection; then
      one per hash to drop, in key order, each resolved with the unsubscribed
      entry. */
  lemma ReconcileFutures(r: Registry, desired: Option<seq<string>>, start: StartOutcome, started: bool, startedLater: bool)
    requires Valid(r)
    ensures var adds := Additions(r, desired);
      var drops := Removals(r, desired);
      var b := SetSubscriptions(r, desired, start, started, startedLater);
      && (forall i :: 0 <= i < |drops| ==>
            drops[i] in r.entries && b.futures[|adds| + i] == Resolved(r.entries[drops[i]].(state := Unsubscribed)))
      && (forall i :: 0 <= i < |adds| ==>
            && (start.StartFailed? ==> b.futures[i] == Rejected(start.reason))
            && (start.Started? && !ValidHash(adds[i]) ==> b.futures[i] == Rejected("invalid hash: " + adds[i]))
            && (start.Started? && ValidHash(adds[i]) ==>
                  adds[i] in b.registry.entries && b.futures[i] == Deferred(b.registry.entries[adds[i]].promise)))
  {
    RemovalFuturesLast(r, desired, start, started, startedLater);
    AdditionFuturesFirst(r, desired, start, started, startedLater);
  }

  /** The unsubscribe futures sit after the subscribe futures. */
  lemma RemovalFuturesLast(r: Registry, desired: Option<seq<string>>, start: StartOutcome, started: bool, startedLater: bool)
    requires KeysListed(r)
    ensures var adds := Additions(r, desired);
      var drops := Removals(r, desired);
      var b := SetSubscriptions(r, desired, start, started, startedLater);
      forall i :: 0 <= i < |drops| ==>
        drops[i] in r.entries && b.futures[|adds| + i] == Resolved(r.entries[drops[i]].(state := Unsubscribed))
  {
    var adds, drops := Additions(r, desired), Removals(r, desired);
    RemovalFutures(r, desired, started);
    FuturesSplit(r, desired, start, started, startedLater);
    ShiftedIndex(SetSubscriptions(r, desired, start, started, startedLater).futures, |adds|,
                 UnsubscribeEach(r, drops, started).futures);
  }

  /** Indexing past a prefix of `fs` is indexing its suffix. */
  lemma ShiftedIndex<T>(fs: seq<T>, n: nat, tail: seq<T>)
    requires n <= |fs| && fs[n..] == tail
    ensures |fs| == n + |tail|
    ensures forall i :: 0 <= i < |tail| ==> fs[n + i] == tail[i]
  {
    forall i | 0 <= i < |tail| ensures fs[n + i] == tail[i] {
      assert fs[n..][i] == tail[i];
    }
  }

  /** Past the subscribe futures come exactly the unsubscribe futures. */
  lemma FuturesSplit(r: Registry, desired: Option<seq<string>>, start: StartOutcome, started: bool, startedLater: bool)
    ensures var b := SetSubscriptions(r, desired, start, started, startedLater);
      && |Additions(r, desired)| <= |b.futures|
      && b.futures[|Additions(r, desired)|..] == UnsubscribeEach(r, Removals(r, desired), started).futures
  {
    var adds := Additions(r, desired);
    var u := UnsubscribeEach(r, Removals(r, desired), started);
    var s := SubscribeEach(u.registry, adds, start, startedLater);
    assert SetSubscriptions(r, desired, start, started, startedLater).futures == s.futures + u.futures;
    assert (s.futures + u.futures)[|s.futures|..] == u.futures;
  }

  /** The subscribe futures come first, one per addition. */
  lemma AdditionFuturesFirst(r: Registry, desired: Option<seq<string>>, start: StartOutcome, started: bool, startedLater: bool)
    ensures var adds := Additions(r, desired);
      var b := SetSubscriptions(r, desired, start, started, startedLater);
      forall i :: 0 <= i < |adds| ==>
        && (start.StartFailed? ==> b.futures[i] == Rejected(start.reason))
        && (start.Started? && !ValidHash(adds[i]) ==> b.futures[i] == Rejected("invalid hash: " + adds[i]))
        && (start.Started? && ValidHash(adds[i]) ==>
              adds[i] in b.registry.entries && b.futures[i] == Deferred(b.registry.entries[adds[i]].promise))
  {
    var adds := Additions(r, desired);
    var u := UnsubscribeEach(r, Removals(r, desired), started);
    var s := SubscribeEach(u.registry, adds, start, startedLater);
    var b := SetSubscriptions(r, desired, start, started, startedLater);
    assert b.futures == s.futures + u.futures && b.registry == s.registry;
    forall i | 0 <= i < |adds| ensures b.futures[i] == s.futures[i] {
    }
  }

  /** With nothing desired, every present hash is to be removed and nothing added. */
  lemma NothingDesired(r: Registry)
    ensures Removals(r, Some([])) == r.keys && Additions(r, Some([])) == []
  {
    ExceptNothing(r.keys, []);
  }

  /** Reconciling against an empty list unsubscribes every present hash, in
      key order, and leaves the registry empty. */
  lemma ReconcileToNothing(r: Registry, start: StartOutcome, started: bool, startedLater: bool)
    requires Valid(r)
    ensures var b := SetSubscriptions(r, Some([]), start, started, startedLater);
      && b.registry.entries == map[]
      && |b.futures| == |r.keys|
      && forall i :: 0 <= i < |r.keys| ==> b.futures[i] == Resolved(r.entries[r.keys[i]].(state := Unsubscribed))
  {
    NothingDesired(r);
    var b := SetSubscriptions(r, Some([]), start, started, startedLater);
    var u := UnsubscribeEach(r, r.keys, started);
    FuturesSplit(r, Some([]), start, started, startedLater);
    assert b.futures == b.futures[0..] == u.futures;
    assert b.registry == SubscribeEach(u.registry, [], start, startedLater).registry == u.registry;
    UnsubscribeEachFutures(r, r.keys, started);
    UnsubscribingAllEmpties(r, started);
  }

  /** Unsubscribing every present hash leaves no entry. */
  lemma UnsubscribingAllEmpties(r: Registry, started: bool)
    requires KeysListed(r)
    ensures UnsubscribeEach(r, r.keys, started).registry.entries == map[]
  {
    var u := UnsubscribeEach(r, r.keys, started);
    assert forall k :: k !in u.registry.entries;
  }

  /** The writes of `streamsToSubscribe.map(subscribe)`: subscribe messages
      for valid listed hashes only, and only when the start succeeds and the
      transport is started; then one for every valid listed hash that was
      absent. Every other effect is a start. */
  lemma {:induction false} SubscribeEachWrites(r: Registry, hs: seq<string>, start: StartOutcome, started: bool)
    ensures forall e :: e in SubscribeEach(r, hs, start, started).effects ==>
      || e == Start
      || (started && start.Started? && exists h :: h in hs && ValidHash(h) && e == Write(SubscribeMessage(h)))
    ensures start.Started? && started ==>
      forall h :: h in hs && ValidHash(h) && h !in r.entries ==>
        Write(SubscribeMessage(h)) in SubscribeEach(r, hs, start, started).effects
    decreases |hs|
  {
    if |hs| > 0 {
      var first := Subscribe(r, hs[0], start, started);
      var rest := SubscribeEach(first.registry, hs[1..], start, started);
      var es := SubscribeEach(r, hs, start, started).effects;
      assert es == first.effects + rest.effects;
      SubscribeEachWrites(first.registry, hs[1..], start, started);
      HeadAndTail(hs);
      if start.Started? && started {
        forall h | h in hs && ValidHash(h) && h !in r.entries ensures Write(SubscribeMessage(h)) in es {
          if h != hs[0] {
            assert h in hs[1..] && h !in first.registry.entries;
          }
        }
      }
    }
  }

  /** The writes of `streamsToUnsubscribe.map(unsubscribe)`: unsubscribe
      messages for listed hashes only, and only when the transport is started;
      then one for every listed hash that was present. */
  lemma {:induction false} UnsubscribeEachWrites(r: Registry, hs: seq<string>, started: bool)
    ensures forall e :: e in UnsubscribeEach(r, hs, started).effects ==>
      started && exists h :: h in hs && e == Write(UnsubscribeMessage(h))
    ensures started ==> forall h :: h in hs && h in r.entries ==>
      Write(UnsubscribeMessage(h)) in UnsubscribeEach(r, hs, started).effects
    decreases |hs|
  {
    if |hs| > 0 {
      var first := Unsubscribe(r, hs[0], started);
      var rest := UnsubscribeEach(first.registry, hs[1..], started);
      var es := UnsubscribeEach(r, hs, started).effects;
      assert es == first.effects + rest.effects;
      UnsubscribeEachWrites(first.registry, hs[1..], started);
      HeadAndTail(hs);
      if started {
        forall h | h in hs && h in r.entries ensures Write(UnsubscribeMessage(h)) in es {
          if h != hs[0] {
            assert h in hs[1..] && h in first.registry.entries;
          }
        }
      }
    }
  }

  /** `setSubscriptions` writes an unsubscribe message for exactly the hashes
      it drops, and only when the transport is started while it runs. */
  lemma ReconcileUnsubscribeWrites(r: Registry, desired: Option<seq<string>>, start: StartOutcome, started: bool, startedLater: bool)
    requires KeysListed(r)
    ensures var es := SetSubscriptions(r, desired, start, started, startedLater).effects;
      forall h :: Write(UnsubscribeMessage(h)) in es <==> started && h in Removals(r, desired)
  {
    UnsubscribeWritesDropped(r, desired, start, started, startedLater);
    var drops := Removals(r, desired);
    var u := UnsubscribeEach(r, drops, started);
    UnsubscribeEachWrites(r, drops, started);
    assert forall e :: e in u.effects ==> e in SetSubscriptions(r, desired, start, started, startedLater).effects;
  }

  /** Each unsubscribe message `setSubscriptions` writes is for a hash it drops. */
  lemma UnsubscribeWritesDropped(r: Registry, desired: Option<seq<string>>, start: StartOutcome, started: bool, startedLater: bool)
    ensures var es := SetSubscriptions(r, desired, start, started, startedLater).effects;
      forall h :: Write(UnsubscribeMessage(h)) in es ==> started && h in Removals(r, desired)
  {
    var drops := Removals(r, desired);
    var u := UnsubscribeEach(r, drops, started);
    var s := SubscribeEach(u.registry, Additions(r, desired), start, startedLater);
    var es := SetSubscriptions(r, desired, start, started, startedLater).effects;
    assert es == [Rearm] + u.effects + s.effects + (if started then [] else [Start]);
    UnsubscribeEachWrites(r, drops, started);
    SubscribeEachWrites(u.registry, Additions(r, desired), start, startedLater);
    forall h | Write(UnsubscribeMessage(h)) in es ensures started && h in drops {
      // A subscribe message names its hash too, so it is never this one.
      if Write(UnsubscribeMessage(h)) in u.effects {
        var g :| g in drops && Write(UnsubscribeMessage(h)) == Write(UnsubscribeMessage(g));
        assert MessageHash(UnsubscribeMessage(g)) == g;
      }
    }
  }

  /** `setSubscriptions` writes a subscribe message for exactly the valid
      hashes it adds, and only when the start succeeds and the transport is
      started by the time the subscriptions go ahead. */
  lemma ReconcileSubscribeWrites(r: Registry, desired: Option<seq<string>>, start: StartOutcome, started: bool, startedLater: bool)
    requires KeysListed(r)
    ensures var es := SetSubscriptions(r, desired, start, started, startedLater).effects;
      forall h :: Write(SubscribeMessage(h)) in es <==>
        startedLater && start.Started? && ValidHash(h) && h in Additions(r, desired)
  {
    SubscribeWritesAdded(r, desired, start, started, startedLater);
    var adds := Additions(r, desired);
    var u := UnsubscribeEach(r, Removals(r, desired), started);
    var s := SubscribeEach(u.registry, adds, start, startedLater);
    SubscribeEachWrites(u.registry, adds, start, startedLater);
    assert forall h :: h in adds ==> h !in u.registry.entries;
    assert forall e :: e in s.effects ==> e in SetSubscriptions(r, desired, start, started, startedLater).effects;
  }

  /** Each subscribe message `setSubscriptions` writes is for a valid hash it adds. */
  lemma SubscribeWritesAdded(r: Registry, desired: Option<seq<string>>, start: StartOutcome, started: bool, startedLater: bool)
    ensures var es := SetSubscriptions(r, desired, start, started, startedLater).effects;
      forall h :: Write(SubscribeMessage(h)) in es ==>
        startedLater && start.Started? && ValidHash(h) && h in Additions(r, desired)
  {
    var adds := Additions(r, desired);
    var u := UnsubscribeEach(r, Removals(r, desired), started);
    var s := SubscribeEach(u.registry, adds, start, startedLater);
    var es := SetSubscriptions(r, desired, start, started, startedLater).effects;
    assert es == [Rearm] + u.effects + s.effects + (if started then [] else [Start]);
    UnsubscribeEachWrites(r, Removals(r, desired), started);
    SubscribeEachWrites(u.registry, adds, start, startedLater);
    forall h | Write(SubscribeMessage(h)) in es
      ensures startedLater && start.Started? && ValidHash(h) && h in adds
    {
      // An unsubscribe message names its hash too, so it is never this one.
      if Write(SubscribeMessage(h)) in s.effects {
        var g :| g in adds && ValidHash(g) && Write(SubscribeMessage(h)) == Write(SubscribeMessage(g));
        assert MessageHash(SubscribeMessage(g)) == g;
      }
    }
  }

  /** A fresh consumer asked for one valid hash starts and, once started,
      writes the subscribe message for it. */
  lemma FirstSubscriptionIsWritten(h: string)
    requires ValidHash(h)
    ensures var es := SetSubscriptions(Initial, Some([h]), Started, false, true).effects;
      Start in es && Write(SubscribeMessage(h)) in es
  {
    ReconcileSubscribeWrites(Initial, Some([h]), Started, false, true);
    assert h in Additions(Initial, Some([h]));
  }

  /** The valid hashes of `hs` that are not in `present`, each at its first
      occurrence, in order: the hashes whose subscription creates an entry. */
  function FreshValid(hs: seq<string>, present: set<string>): (fs: seq<string>)
    ensures forall h :: h in fs <==> h in hs && ValidHash(h) && h !in present
    decreases |hs|
  {
    if |hs| == 0 then []
    else
      HeadAndTail(hs);
      if ValidHash(hs[0]) && hs[0] !in present then [hs[0]] + FreshValid(hs[1..], present + {hs[0]})
      else FreshValid(hs[1..], present)
  }

  /** `FreshValid` looks at `present` only for the hashes listed. */
  lemma {:induction false} FreshValidAgrees(hs: seq<string>, p: set<string>, q: set<string>)
    requires forall h :: h in hs ==> (h in p <==> h in q)
    ensures FreshValid(hs, p) == FreshValid(hs, q)
    decreases |hs|
  {
    if |hs| > 0 {
      HeadAndTail(hs);
      FreshValidAgrees(hs[1..], p + {hs[0]}, q + {hs[0]});
      FreshValidAgrees(hs[1..], p, q);
    }
  }

  /** The order of the writes of `streamsToSubscribe.map(subscribe)`: one
      subscribe message per hash that gets a new entry, in list order, when the
      start succeeds and the transport is started; one start per hash. */
  lemma {:induction false} SubscribeEachOrder(r: Registry, hs: seq<string>, start: StartOutcome, started: bool)
    ensures var es := SubscribeEach(r, hs, start, started).effects;
      && Written(es) == (if start.Started? && started then SubscribeMessages(FreshValid(hs, r.entries.Keys)) else [])
      && Starts(es) == |hs|
    decreases |hs|
  {
    if |hs| > 0 {
      var first := Subscribe(r, hs[0], start, started);
      var rest := SubscribeEach(first.registry, hs[1..], start, started);
      SubscribeStepOrder(r, hs[0], start, started);
      SubscribeEachOrder(first.registry, hs[1..], start, started);
      WrittenAppend(first.effects, rest.effects);
      if start.Started? && started {
        if ValidHash(hs[0]) && hs[0] !in r.entries {
          var tail := FreshValid(hs[1..], r.entries.Keys + {hs[0]});
          assert FreshValid(hs, r.entries.Keys) == [hs[0]] + tail;
          assert SubscribeMessages([hs[0]] + tail) == [SubscribeMessage(hs[0])] + SubscribeMessages(tail);
        } else {
          assert FreshValid(hs, r.entries.Keys) == FreshValid(hs[1..], r.entries.Keys);
        }
      }
    }
  }

  /** One `subscribe` in a batch: one start, and a subscribe message exactly
      when it creates an entry while started. */
  lemma SubscribeStepOrder(r: Registry, h: string, start: StartOutcome, started: bool)
    ensures var first := Subscribe(r, h, start, started);
      var creates := start.Started? && ValidHash(h) && h !in r.entries;
      && Starts(first.effects) == 1
      && Written(first.effects) == (if creates && started then [SubscribeMessage(h)] else [])
      && first.registry.entries.Keys == (if creates then r.entries.Keys + {h} else r.entries.Keys)
  {
    var first := Subscribe(r, h, start, started);
    if start.Started? && ValidHash(h) && h !in r.entries {
      assert first.registry.entries.Keys == r.entries.Keys + {h};
      if started {
        assert first.effects == [Start, Write(SubscribeMessage(h))];
        assert first.effects[1..][1..] == [];
      }
    } else {
      assert first.effects == [Start];
    }
  }

  /** The order of the writes of `streamsToUnsubscribe.map(unsubscribe)` for
      distinct present hashes: one unsubscribe message per hash, in list order,
      when the transport is started; no start. */
  lemma {:induction false} UnsubscribeEachOrder(r: Registry, hs: seq<string>, started: bool)
    requires Distinct(hs) && forall h :: h in hs ==> h in r.entries
    ensures var es := UnsubscribeEach(r, hs, started).effects;
      && Written(es) == (if started then UnsubscribeMessages(hs) else [])
      && Starts(es) == 0
    decreases |hs|
  {
    if |hs| > 0 {
      HeadAndTail(hs);
      var first := Unsubscribe(r, hs[0], started);
      var rest := UnsubscribeEach(first.registry, hs[1..], started);
      UnsubscribeEachOrder(first.registry, hs[1..], started);
      WrittenAppend(first.effects, rest.effects);
      assert first.effects == if started then [Write(UnsubscribeMessage(hs[0]))] else [];
    }
  }

  /** The control messages `setSubscriptions` writes, in order: the
      unsubscribe messages for the dropped hashes in key order, written while
      the call runs, then the subscribe messages for the valid added hashes in
      desired order, each once, written after the start. The consumer is
      started once per addition, and once more at the end exactly when the
      transport was not started. */
  lemma ReconcileWriteOrder(r: Registry, desired: Option<seq<string>>, start: StartOutcome, started: bool, startedLater: bool)
    requires KeysListed(r)
    ensures var es := SetSubscriptions(r, desired, start, started, startedLater).effects;
      && Written(es) ==
           (if started then UnsubscribeMessages(Removals(r, desired)) else [])
           + (if start.Started? && startedLater then SubscribeMessages(FreshValid(Additions(r, desired), {})) else [])
      && Starts(es) == |Additions(r, desired)| + (if started then 0 else 1)
  {
    SetSubscriptionsSplit(r, desired, start, started, startedLater);
    UnsubscribeHalfOrder(r, desired, started);
    SubscribeHalfOrder(r, desired, start, started, startedLater);
  }

  /** The unsubscribe half of `setSubscriptions` writes the dropped hashes'
      messages in key order when started, and starts nothing. */
  lemma UnsubscribeHalfOrder(r: Registry, desired: Option<seq<string>>, started: bool)
    requires KeysListed(r)
    ensures var u := UnsubscribeEach(r, Removals(r, desired), started);
      && Written(u.effects) == (if started then UnsubscribeMessages(Removals(r, desired)) else [])
      && Starts(u.effects) == 0
  {
    ExceptDistinct(r.keys, desired.GetOr([]));
    UnsubscribeEachOrder(r, Removals(r, desired), started);
  }

  /** The subscribe half of `setSubscriptions` writes the valid added hashes'
      messages in desired order, each once, after a successful start while
      started, and starts once per addition. */
  lemma SubscribeHalfOrder(r: Registry, desired: Option<seq<string>>, start: StartOutcome, started: bool, startedLater: bool)
    requires KeysListed(r)
    ensures var u := UnsubscribeEach(r, Removals(r, desired), started);
      var s := SubscribeEach(u.registry, Additions(r, desired), start, startedLater);
      && Written(s.effects) ==
           (if start.Started? && startedLater then SubscribeMessages(FreshValid(Additions(r, desired), {})) else [])
      && Starts(s.effects) == |Additions(r, desired)|
  {
    var adds := Additions(r, desired);
    var u := UnsubscribeEach(r, Removals(r, desired), started);
    SubscribeEachOrder(u.registry, adds, start, startedLater);
    assert forall h :: h in adds ==> h !in u.registry.entries.Keys;
    FreshValidAgrees(adds, u.registry.entries.Keys, {});
  }

  /** `setSubscriptions`' writes and starts are those of its unsubscribe half,
      then those of its subscribe half, then the final start. */
  lemma SetSubscriptionsSplit(r: Registry, desired: Option<seq<string>>, start: StartOutcome, started: bool, startedLater: bool)
    ensures var u := UnsubscribeEach(r, Removals(r, desired), started);
      var s := SubscribeEach(u.registry, Additions(r, desired), start, startedLater);
      var es := SetSubscriptions(r, desired, start, started, startedLater).effects;
      && Written(es) == Written(u.effects) + Written(s.effects)
      && Starts(es) == Starts(u.effects) + Starts(s.effects) + (if started then 0 else 1)
  {
    var u := UnsubscribeEach(r, Removals(r, desired), started);
    var s := SubscribeEach(u.registry, Additions(r, desired), start, startedLater);
    var tail: seq<Effect> := if started then [] else [Start];
    assert SetSubscriptions(r, desired, start, started, startedLater).effects == [Rearm] + u.effects + s.effects + tail;
    WrittenAround(u.effects, s.effects, tail);
  }

  /** With the transport already started, asking a fresh consumer for one
      valid hash starts it once, for the subscription, and writes that hash's
      subscribe message and nothing else. */
  lemma StartedConsumerStartsOnce(h: string)
    requires ValidHash(h)
    ensures var es := SetSubscriptions(Initial, Some([h]), Started, true, true).effects;
      Starts(es) == 1 && Written(es) == [SubscribeMessage(h)]
  {
    ReconcileWriteOrder(Initial, Some([h]), Started, true, true);
    assert Additions(Initial, Some([h])) == [h] by {
      assert [h][1..] == [];
    }
    assert FreshValid([h], {}) == [h] by {
      assert [h][1..] == [];
    }
  }
}
